=== FILE: README.md ===
# gnoixus in Dafny

gnoixus is a browser extension that carries four features:

- a dark mode;
- a linter/formatter for code blocks, backed by a web worker;
- a GitHub user and repository search with a five-minute cache;
- a password vault locked by a master key.

A content script registers the four features and dispatches messages to them. A background script sets the default flags, toggles a feature in every tab, and forwards the remaining messages to tabs.

This project models that core as pure Dafny functions over immutable state, and proves what each operation promises.

## Layout

Each file holds one module.

- `types.dfy`: `Option`, password entries, search results, linter results.
- `text.dfy`: the JavaScript string operations the code relies on: `indexOf`, `includes`, `split`, ASCII `toLowerCase`. It also counts lengths and positions in UTF-16 code units, as JavaScript reports them.
- `js_object.dfy`: a plain object with string keys in insertion order. It supports `o[k]`, `o[k] = v`, `delete o[k]` and `Object.values`.
- `storage.dfy`: `StorageManager`. `get` turns every falsy stored value into `null`.
- `crypto.dfy`: `CryptoUtils`.
  - AES is a `Cipher`: a pair of function values, where each encryption takes an explicit salt.
  - The behaviour the source's tests expect of the cipher is stated as ghost predicates.
  - `generatePassword` reads a stream of random words.
- `dom.dfy`: `DOMUtils.isCodeElement`.
- `worker.dfy`: the worker's `lintCode`, `formatCode`, `formatJavaScript`, `formatCSS` and its message listener.
- `linter_formatter.dfy`: the linter/formatter feature: language detection, the fallback formatter, the processed-once rule for code elements, and the observer's life cycle.
- `dark_mode.dfy`: the dark-mode style element and the injected style sheet.
- `github_search.dfy`: the cached search. The fetch's outcome and the clock are arguments.
- `password_manager.dfy`: the vault state machine. The auto-lock timer is a deadline.
- `content.dfy`: the content script's registry, dispatcher, toggle and cleanup.
- `background.dfy`: install defaults, reading flags, the toggle broadcast, and message routing.

Outside effects are all arguments:

- clock readings (`now`, `arrival`);
- the salt of each encryption and the random words;
- the outcome of a `fetch`, of a tab query or of a `tabs.sendMessage`;
- the code elements currently in the page;
- JSON parsing;
- the regular-expression passes that are not modelled character by character.

## Model

| member | source | states |
|---|---|---|
| Text.IndexOf | src/features/linterFormatter/worker.ts:130 | The search behind `indexOf` returns the first position, counted in characters, where the pattern occurs, and -1 exactly when it occurs nowhere. |
| Text.Utf16LengthBounds | src/features/passwordManager/passwordManager.ts:74 | JavaScript's `length` counts one or two code units per character. It equals the character count exactly when no character lies outside the Basic Multilingual Plane. |
| Text.CodeUnitIndexOf | src/features/linterFormatter/worker.ts:130 | `indexOf` as JavaScript reports it: -1 exactly when the pattern is absent, otherwise the number of code units before its first occurrence. |
| Text.CodeUnitIndexOfBmp | src/features/linterFormatter/worker.ts:130 | In text without astral characters, the code-unit position equals the character position. |
| Text.Split | src/features/linterFormatter/worker.ts:123 | `split('\n')` yields one more piece than there are separators. No piece holds a separator, and joining the pieces gives the text back. |
| Text.ToLower | src/features/linterFormatter/linterFormatter.ts:149 | `toLowerCase` keeps the length and lower-cases each character in place. |
| JsObject.KeyIndex | src/features/passwordManager/passwordManager.ts:182 | The position of the first property with a given name: it has that name, and no earlier property does. |
| JsObject.Lookup | src/features/passwordManager/passwordManager.ts:182 | Reading a property gives `undefined` exactly when the key is absent. Otherwise it gives the value of the first property with that name. |
| JsObject.Put | src/features/passwordManager/passwordManager.ts:158 | Assigning a property adds exactly that key and keeps keys distinct. |
| JsObject.PutPlacement | src/features/passwordManager/passwordManager.ts:158 | A new key goes at the end. For an existing key, only the value at its position is replaced, so every property keeps its place and order. |
| JsObject.Delete | src/features/passwordManager/passwordManager.ts:243 | `delete` removes exactly that key and does nothing when the key is absent. |
| JsObject.DeleteAt | src/features/passwordManager/passwordManager.ts:243 | `delete` cuts out the property at the key's position, and the remaining properties keep their order. |
| JsObject.LookupPut | src/features/passwordManager/passwordManager.ts:158 | After `o[k] = v`, reading `k` gives `v`, and every other key reads as before. |
| JsObject.PutSlots | src/features/passwordManager/passwordManager.ts:158 | After `o[k] = v`, the new property is present, and every other property is one the object already had. |
| JsObject.LookupDelete | src/features/passwordManager/passwordManager.ts:243 | After `delete o[k]`, `k` is missing, and every other key reads as before. |
| JsObject.Values | src/features/passwordManager/passwordManager.ts:217 | `Object.values` lists the values in property order, one per property. |
| Storage.GetNullIff | src/utils.ts:20-28 | `get` returns null exactly for a missing key or a falsy value (false, 0, "" or null). Otherwise it returns the stored value. |
| Storage.SetThenGet | src/utils.ts:20-44 | After `set`, `get` returns a truthy value as written and null for a falsy one. Other keys are untouched. After `remove`, the key reads null. |
| Storage.FeatureKey | src/utils.ts:47 | A flag's key is `feature_` followed by the feature's name. |
| Storage.FeatureKeyInjective | src/utils.ts:47 | Distinct features have distinct flag keys. |
| Storage.SetFeatureState | src/utils.ts:51-53 | Writing a flag stores exactly `Bool(enabled)` under `feature_<name>` and changes no other key. |
| Storage.GetFeatureStateAlwaysEnabled | src/utils.ts:46-49 | As written, the flag reader returns a truthy value for every store, even where `false` is stored. |
| Storage.DisabledFlagReadsEnabled | src/utils.ts:46-49 | As written, `setFeatureState(name, false)` followed by `getFeatureState(name)` gives `true`. The corrected reader gives `false`. |
| Storage.FeatureEnabledRoundTrip | src/utils.ts:46-53 | The corrected reader returns exactly the flag last written, defaults a missing flag to enabled, and is unaffected by other features' writes. |
| Crypto.Decrypt | src/utils.ts:64-72 | `decrypt` never raises. A failed decryption reads as the empty string. |
| Crypto.Draw | src/utils.ts:86-92 | The loop's picks: character `i` is the charset at index `array[i] % charset.length`. |
| Crypto.GeneratePassword | src/utils.ts:74-95 | Generation fails exactly for a negative length or more than 65536 random bytes. Otherwise the password has the requested length, and each character comes from its random word and the enabled classes. |
| Crypto.GeneratePasswordLoop | src/utils.ts:86-94 | The imperative loop computes the same password as the functional definition. |
| Crypto.LowercaseOnly | src/utils.ts:80-91 | With only lowercase enabled, every character is in a..z. |
| Crypto.AllClassesCharset | src/utils.ts:80-84 | With all four classes enabled, the charset is lowercase, uppercase, digits and symbols in that order: 88 characters. |
| Dom.IsCodeElementCaseBlind | src/utils.ts:126-131 | The code-element test ignores the case of the tag name. |
| Dom.IsCodeElementCases | src/utils.ts:126-131 | `pre`, `code` and `textarea` count in any case. So does any element with class `code` or `highlight`. A `div` with neither class does not. |
| Worker.LintLinesBounds | src/features/linterFormatter/worker.ts:123-145 | Every finding names a real line, numbered from 1. |
| Worker.LintLinesOrdered | src/features/linterFormatter/worker.ts:125-145 | Findings come in line order, and within a line the console warning precedes the debugger error. |
| Worker.LintLinesExact | src/features/linterFormatter/worker.ts:125-144 | A finding is reported exactly when its line holds `console.log` (a warning) or `debugger` (an error), at the column of the first occurrence. |
| Worker.LintLinesEmpty | src/features/linterFormatter/worker.ts:125-149 | The report is empty exactly when no line holds either pattern. |
| Worker.Lines | src/features/linterFormatter/worker.ts:123 | Splitting on newlines gives one line more than there are line feeds. |
| Worker.LintCode | src/features/linterFormatter/worker.ts:114-151 | Linting always succeeds. `errors` is absent exactly when every line is clean. Otherwise `errors` is the per-line report of the lines of the code: ordered, and naming lines 1 to the line count. |
| Worker.LintCodeReports | src/features/linterFormatter/worker.ts:123-150 | A finding is in the report exactly when it is the warning of a line holding `console.log` or the error of a line holding `debugger`. Each carries its 1-based line number, the column of the first occurrence and its fixed message. |
| Worker.ConsoleColumnAfterEmoji | src/features/linterFormatter/worker.ts:130 | The column is a UTF-16 offset: one emoji before `console.log` puts it at column 2. |
| Worker.FormatCssPerCharacter | src/features/linterFormatter/worker.ts:102-112 | The three global replacements equal an independent per-character rewrite: `{`, `}` and `;` are expanded, every other character is kept. |
| Worker.FormatCssPlain | src/features/linterFormatter/worker.ts:102-112 | Text with no brace and no semicolon comes back unchanged. |
| Worker.NormalizeNewlinesDropsCr | src/features/linterFormatter/worker.ts:91 | The CRLF replacement deletes exactly the carriage returns that precede a line feed. |
| Worker.NormalizeNewlinesKeepsLines | src/features/linterFormatter/worker.ts:91 | Normalising line endings keeps the number of lines. |
| Worker.SkipSpace | src/features/linterFormatter/worker.ts:97 | `\s*` consumes a maximal run of whitespace. |
| Worker.RewriteFunctionParenOnlySpaces | src/features/linterFormatter/worker.ts:97 | The `function (` rewrite changes whitespace only. |
| Worker.RewriteFunctionParenExample | src/features/linterFormatter/worker.ts:97 | `function  (` becomes `function (`. |
| Worker.FormatCode | src/features/linterFormatter/worker.ts:47-84 | Formatting fails exactly for unparsable JSON, and then reports only the "Invalid JSON" error. Parsable JSON succeeds with exactly the pretty-printed text and no errors. CSS gets the per-character rewrite, JavaScript and TypeScript the JavaScript formatter, and any other language comes back unchanged. |
| Worker.HandleMessage | src/features/linterFormatter/worker.ts:23-33 | The worker answers `format` and `lint` and no other action. |
| LinterFormatter.FirstKeyFrom | src/features/linterFormatter/linterFormatter.ts:163-167 | The search stops at the first language key, from a given one on, that occurs in the class names. |
| LinterFormatter.DetectLanguage | src/features/linterFormatter/linterFormatter.ts:147-170 | The detected language is the first key, in table order, that occurs in the lower-cased class names. The default is `javascript`. |
| LinterFormatter.JavaScriptBeforeJava | src/features/linterFormatter/linterFormatter.ts:151-167 | A class naming `javascript` is never detected as `java`. |
| LinterFormatter.FormatCode | src/features/linterFormatter/linterFormatter.ts:172-198 | The feature's formatter always succeeds. Invalid JSON comes back as it was, and languages other than JavaScript, TypeScript and JSON are untouched. |
| LinterFormatter.FormatCodeAgainstWorker | src/features/linterFormatter/linterFormatter.ts:185-193 | The feature's formatter and the worker's agree on valid JSON and on languages neither rewrites. On invalid JSON the feature succeeds with the code unchanged while the worker fails. Only the worker reformats CSS. |
| LinterFormatter.AddFormatButton | src/features/linterFormatter/linterFormatter.ts:71-107 | Inline `code`, or an element without a parent, gets no button. Any other element gets exactly one, appended. |
| LinterFormatter.ProcessAllEffect | src/features/linterFormatter/linterFormatter.ts:63-68 | One pass marks exactly the code elements found as processed, and adds buttons only for elements it had not processed before. |
| LinterFormatter.ProcessAllDone | src/features/linterFormatter/linterFormatter.ts:63-68 | Once every code element found is processed, a pass changes nothing. |
| LinterFormatter.ApplyToExistingElements | src/features/linterFormatter/linterFormatter.ts:58-69 | Disabled, nothing happens. Enabled, the processed set grows by the code elements found. Existing buttons stay, new buttons go only to newly processed elements, and no element has two buttons. |
| LinterFormatter.ApplyIdempotent | src/features/linterFormatter/linterFormatter.ts:58-69 | Applying twice to the same page is applying once. |
| LinterFormatter.StartObserving | src/features/linterFormatter/linterFormatter.ts:36-49 | Starting the observer sets only the observing flag, so a second start changes nothing. |
| LinterFormatter.StopObserving | src/features/linterFormatter/linterFormatter.ts:51-56 | Stopping the observer clears only the observing flag. |
| LinterFormatter.Toggle | src/features/linterFormatter/linterFormatter.ts:24-34 | After a toggle, enabled and observing both equal the new flag, and the flag is persisted. Enabling processes the page. Disabling keeps the buttons. |
| LinterFormatter.Init | src/features/linterFormatter/linterFormatter.ts:14-22 | An enabled feature observes and processes the page. A disabled one changes nothing else. |
| LinterFormatter.Cleanup | src/features/linterFormatter/linterFormatter.ts:212-216 | Cleanup stops observing and removes every button. The processed set is kept. |
| LinterFormatter.ReenableAfterCleanup | src/features/linterFormatter/linterFormatter.ts:24-34 | Because cleanup keeps the processed set, re-enabling gives buttons only to elements never processed before. An element that lost its button to cleanup does not get it back. |
| DarkMode.Without | src/utils.ts:109-113 | Removing the element leaves exactly the other styles in the page. |
| DarkMode.Apply | src/features/darkMode/darkMode.ts:33-56 | Applying injects one style built from the current intensity, with the sheet `Css` gives for it, unless one is already present. |
| DarkMode.Remove | src/features/darkMode/darkMode.ts:58-64 | Removing takes the injected style out of the page and clears the handle. It does nothing when there is no style. |
| DarkMode.ApplyRemoveIdempotent | src/features/darkMode/darkMode.ts:33-64 | Applying twice is applying once, and removing twice is removing once. |
| DarkMode.Toggle | src/features/darkMode/darkMode.ts:22-31 | After a toggle, a style is present exactly when the feature is enabled, and at most one style is present. The store is exactly the one `setFeatureState` writes. |
| DarkMode.SetIntensity | src/features/darkMode/darkMode.ts:81-87 | When enabled, the page ends up with exactly one style, built from the new intensity. When disabled, nothing is injected. |
| DarkMode.Init | src/features/darkMode/darkMode.ts:13-20 | An enabled feature starts with its style applied. |
| DarkMode.Cleanup | src/features/darkMode/darkMode.ts:66-68 | Cleanup leaves no style in the page. |
| DarkMode.ToggleOffOn | src/features/darkMode/darkMode.ts:22-31 | Toggling off and on again leaves a single style at the initial intensity 0.9. |
| DarkMode.CssEmbedsIntensity | src/features/darkMode/darkMode.ts:38-52 | The style sheet carries the intensity's `invert` filter twice, once for the page and once for media. |
| DarkMode.AppliedSheetInverts | src/features/darkMode/darkMode.ts:33-53 | The style injected into a page without one carries the current intensity's `invert` filter twice. |
| GithubSearch.CacheKey | src/features/githubSearch/githubSearch.ts:52 | A cache key is the type name, a colon and the query. The query can be read back from the key. |
| GithubSearch.CacheKeyInjective | src/features/githubSearch/githubSearch.ts:52 | Two searches share a cache key exactly when they have the same type and the same query. |
| GithubSearch.Search | src/features/githubSearch/githubSearch.ts:42-100 | An empty query gives null. A fresh entry (younger than 5 minutes) is served with no request. Otherwise a request is made, and only an OK, decodable response is returned and cached, stamped at arrival. A 403, any other error status, or a network error gives null and changes nothing. |
| GithubSearch.SearchFrame | src/features/githubSearch/githubSearch.ts:84-92 | A search leaves every other cache entry as it was. |
| GithubSearch.CachedUntilTimeout | src/features/githubSearch/githubSearch.ts:53-58 | After a successful request, the same search is served from the cache for exactly five minutes after arrival, and makes a request after that. |
| GithubSearch.HandleSearch | src/features/githubSearch/githubSearch.ts:32-40 | A disabled feature answers null without a request. An enabled one searches. |
| GithubSearch.OnMessage | src/features/githubSearch/githubSearch.ts:20-24 | Only a `search` message for this feature is answered. |
| GithubSearch.Toggle | src/features/githubSearch/githubSearch.ts:27-30 | A toggle keeps the cache. The store is exactly the one `setFeatureState` writes. |
| GithubSearch.Init | src/features/githubSearch/githubSearch.ts:15-17 | `init` takes the flag and keeps the cache. |
| GithubSearch.ClearCache | src/features/githubSearch/githubSearch.ts:113-116 | Clearing empties the cache and keeps the flag. |
| GithubSearch.ClearedCacheFetches | src/features/githubSearch/githubSearch.ts:113-116 | After clearing, every non-empty search makes a request. |
| PasswordManager.Arm | src/features/passwordManager/passwordManager.ts:122-136 | Starting the timer replaces any running one with a deadline five minutes from now. |
| PasswordManager.Open | src/features/passwordManager/passwordManager.ts:83-85 | A successful setup or unlock holds the key, unlocks the vault and arms the timer. |
| PasswordManager.Lock | src/features/passwordManager/passwordManager.ts:113-120 | Locking forgets the key and stops the timer. |
| PasswordManager.LockIdempotent | src/features/passwordManager/passwordManager.ts:113-120 | Locking a locked vault changes nothing. |
| PasswordManager.Expire | src/features/passwordManager/passwordManager.ts:125-128 | The timer firing locks the vault exactly when its deadline has passed. |
| PasswordManager.AutoLock | src/features/passwordManager/passwordManager.ts:122-129 | After a successful unlock the vault stays open for less than five minutes of inactivity, and is locked at five minutes. |
| PasswordManager.SetupMasterKey | src/features/passwordManager/passwordManager.ts:73-89 | A key shorter than 8 UTF-16 code units is refused and nothing changes. Otherwise the key's verifier and the "set" flag are stored, nothing else is written, and the vault opens. |
| PasswordManager.SetupCountsCodeUnits | src/features/passwordManager/passwordManager.ts:74 | Four astral characters, which are 8 code units, make an acceptable key. Seven letters do not. |
| PasswordManager.UnlockAsWritten | src/features/passwordManager/passwordManager.ts:91-111 | As written, unlock fails with "Master key not set up" without a stored verifier. It succeeds exactly when a fresh encryption of the candidate equals the stored string, and fails with "Invalid master key" otherwise. Success opens the vault with a fresh deadline. Storage is never written. |
| PasswordManager.Unlock | src/features/passwordManager/passwordManager.ts:91-111 | Corrected unlock succeeds exactly when the stored verifier decrypts to the candidate key, and then the vault opens. It never writes storage. |
| PasswordManager.UnlockAfterSetup | src/features/passwordManager/passwordManager.ts:79-103 | After setup and lock, the as-written unlock with the same key succeeds exactly when the two salted encryptions coincide. The corrected unlock accepts that key and refuses every other one. |
| PasswordManager.SaltedCipherAdmitted | src/utils.ts:56-72 | The witness cipher, which records the salt in front of the text, round-trips and never yields an empty ciphertext. |
| PasswordManager.SetupLockUnlockRefused | src/features/passwordManager/passwordManager.ts:99-103 | For every acceptable key and that round-tripping cipher: setup, lock, then unlock with the same key under a new salt. The unlock as written answers "Invalid master key", and the corrected unlock opens the vault. |
| PasswordManager.SetupLockUnlockMessages | src/features/passwordManager/passwordManager.ts:47-67 | The same run as messages: `setup('password1')`, `lock`, `unlock('password1')`. The dispatcher as written answers "Invalid master key", and the corrected dispatcher unlocks. |
| PasswordManager.AddPassword | src/features/passwordManager/passwordManager.ts:138-168 | A locked vault refuses, and a non-object store fails to save. Otherwise the site's entry becomes the password encrypted under the master key, stamped now, only the store changes, and the timer is reset. |
| PasswordManager.AddPasswordOtherSites | src/features/passwordManager/passwordManager.ts:157-159 | Adding a password leaves every other site's entry as it was. |
| PasswordManager.GetPassword | src/features/passwordManager/passwordManager.ts:170-204 | A locked vault refuses, and a missing site is not found. For a stored site, an empty decryption fails with nothing changed. Any other decryption is returned with the stored username, and the timer is reset. Conversely, a credential is only ever the stored username and that non-empty decryption. Storage is never written. |
| PasswordManager.GetUnderOtherKey | src/features/passwordManager/passwordManager.ts:186-199 | With a cipher that rejects wrong keys, a password read under a master key other than the one it was saved under is never the saved password. |
| PasswordManager.ListPasswords | src/features/passwordManager/passwordManager.ts:206-229 | Unlocked, the listing has one entry per stored entry, in property order, with site, username and update time but no ciphertext. |
| PasswordManager.AddStoresEntry | src/features/passwordManager/passwordManager.ts:148-163 | An add puts the fresh entry under its site and leaves the vault unlocked. |
| PasswordManager.PutListed | src/features/passwordManager/passwordManager.ts:158-222 | An entry put under its own site is listed: one more line for a new site, the same count for a replaced one. If the store is well formed and every entry names its own site, no other line names it. |
| PasswordManager.AddThenList | src/features/passwordManager/passwordManager.ts:148-222 | After an add, the listing shows the site with its username and time, once. |
| PasswordManager.DeletePassword | src/features/passwordManager/passwordManager.ts:231-253 | Unlocked, deleting a stored site removes exactly that key and only touches the store. A missing site is not found. |
| PasswordManager.DeletePasswordOtherSites | src/features/passwordManager/passwordManager.ts:243-245 | Deleting a site leaves every other site's entry as it was. |
| PasswordManager.GeneratePassword | src/features/passwordManager/passwordManager.ts:255-272 | Generating yields the generator's password over all four classes, of the requested length (16 by default). The reply is `{success: false}` exactly when the generator raises. |
| PasswordManager.AddThenGet | src/features/passwordManager/passwordManager.ts:148-199 | A password added while unlocked reads back with its username, except the empty password, which reads as a decryption failure. |
| PasswordManager.DeleteThenGet | src/features/passwordManager/passwordManager.ts:182-243 | After a delete, getting the site gives "Password not found". |
| PasswordManager.ActionOf | src/features/passwordManager/passwordManager.ts:47-70 | The `switch` selects no case exactly for a type outside the eight actions. `lock`, `generate`, the four password actions, and `setup`/`unlock` each select their own cases. |
| PasswordManager.HandleMessage | src/features/passwordManager/passwordManager.ts:44-71 | A disabled feature and an unknown action are refused. `lock` locks. `unlock` and `setup` are the operations as written. `add`, `get`, `list`, `delete` and `generate` are exactly the corresponding operations on the message's fields. The password actions need an unlocked vault, and a successful one resets the timer. A successful unlock opens the vault with a fresh deadline. `generate` needs no unlock. Errors change nothing. Every step keeps the vault invariant and the enabled flag, and writes only the vault's three keys. |
| PasswordManager.HandleMessageCorrected | src/features/passwordManager/passwordManager.ts:48-49 | Corrected dispatcher: `unlock` goes to the corrected unlock, and every other message is handled as written. A successful setup, unlock or password action leaves the vault unlocked with a fresh deadline. |
| PasswordManager.OnMessage | src/features/passwordManager/passwordManager.ts:22-26 | Only messages for this feature are answered. |
| PasswordManager.Toggle | src/features/passwordManager/passwordManager.ts:35-42 | Disabling locks the vault, and enabling changes only the flag. The store is exactly the one `setFeatureState` writes. |
| PasswordManager.Init | src/features/passwordManager/passwordManager.ts:17-19 | `init` takes the flag and nothing else. |
| PasswordManager.Cleanup | src/features/passwordManager/passwordManager.ts:303-305 | Cleanup is a lock. |
| PasswordManager.RunKeepsInv | src/features/passwordManager/passwordManager.ts:12-15 | Under every sequence of messages, dispatched as written, and timer expiries, the key is held exactly while unlocked, and the timer runs only while unlocked. |
| Content.RegistryNames | src/content.ts:20-25 | The registry holds the four features, each once. |
| Content.InitAll | src/content.ts:18-37 | As written, each feature starts from the truthiness of `getFeatureState`'s answer, so every feature starts enabled whatever is stored. The dark style is injected and the page's code elements are processed. |
| Content.InitAllCorrected | src/content.ts:18-37 | With the corrected reader, each feature starts with the flag stored for it, and dark mode's style is present exactly when its flag is on. |
| Content.ToggleFeature | src/content.ts:62-78 | An unknown name changes nothing and fails. A registered one succeeds, sets that feature's flag in memory, and writes exactly what `setFeatureState` writes. The named feature's state is exactly what its own `toggle` makes of it. The other three features' states are unchanged. |
| Content.HandleMessage | src/content.ts:45-60 | Toggles are dispatched. A message for a registered feature is left to that feature. Anything else is answered "Unknown message type" and changes nothing. |
| Content.Cleanup | src/content.ts:80-86 | Every feature is cleaned up: no style, no buttons, no observer, an empty cache, a locked vault. The flags are kept. |
| Content.CleanupIdempotent | src/content.ts:80-86 | Cleaning up twice is cleaning up once. |
| Content.ToggleOffLostOnReload | src/content.ts:18-37 | As written, switching a feature off stores `false`, yet the next page load starts the feature enabled. |
| Content.ToggleSurvivesReloadCorrected | src/content.ts:62-78 | With the corrected reader, a toggle made in one page is the state a later page load starts with. |
| Background.FlagKeysMatchRegistry | src/background.ts:52-57 | The four default keys are the flag keys of the registered features, in order. |
| Background.HandleInstall | src/background.ts:41-58 | A fresh install writes `true` to the four flags and nothing else. Any other reason writes nothing. |
| Background.InstallEnablesAll | src/background.ts:50-58 | After a fresh install every registered feature reads as enabled. |
| Background.GetFeatureStates | src/background.ts:90-100 | Reading the flags returns exactly the stored ones among the four keys, as stored. |
| Background.Recipients | src/background.ts:108-118 | The toggle is sent to exactly the queried tabs whose id is present and non-zero. |
| Background.RecipientsAppend | src/background.ts:108-118 | Tabs are notified in the order the query lists them. |
| Background.ToggleFeature | src/background.ts:102-125 | Success exactly when neither the write nor the tab query raises. The flag is written unless the write raises, and nothing else is. Every tab with an id is notified exactly on success. |
| Background.InstallThenStates | src/background.ts:50-100 | After a fresh install, reading the flags gives all four as `true`. |
| Background.ToggleThenRead | src/background.ts:102-125 | As written, after a background toggle the content scripts' reader returns `true`, whichever way the flag was set. |
| Background.ToggleThenReadCorrected | src/background.ts:102-125 | With the corrected reader, after a successful background toggle, content scripts read the new flag. |
| Background.RouteOf | src/background.ts:63-87 | `getFeatureStates` and `toggleFeature` are handled here. `search` goes to the sender's tab when there is one. Any other type with a feature goes to the active tab when it has an id. |
| Background.ForwardToTab | src/background.ts:127-134 | A failed send is answered "Failed to communicate with tab". |
| Background.HandleMessage | src/background.ts:60-88 | Only a toggle writes storage. An unroutable message is answered `{success: false}`. A failed forward to the active tab is not caught. |
| Background.OnlyToggleWrites | src/background.ts:60-104 | Only a `toggleFeature` message writes storage, and it writes at most its one flag key. |
| Background.ForwardingFailures | src/background.ts:70-87 | A failed forward to the sender's tab is answered "Failed to communicate with tab". A failed forward to the active tab is a rejection. A delivered answer is passed back either way. |

## Left out

- popup.ts, the popup HTML of every feature (`getPopupContent`), the logger and the message-bus wrappers are not modelled. They only render text or pass messages through.
- `formatElement`, the format button's click handler, is not modelled. It only moves the result of `detectLanguage` and `formatCode` into the DOM, and times the button's label.
- Background `handleBrowserAction` and the context menus are not modelled. They hold no logic that the state depends on.
- AES is not modelled, only its observable behaviour: a `Cipher` of two function values, whose encryption takes the call's salt. The properties the source's tests expect (tests/utils.test.ts:51-71) are hypotheses.
- The auth token of the GitHub search (`getAuthToken`, `setAuthToken`) is left out. It only adds a request header. The URL, the JSON decoding and the response body are abstract.
- The MutationObserver and its 500 ms debounce are only the `observing` flag. A mutation re-runs `applyToExistingElements`, which is modelled.
- `setTimeout` for the vault is a deadline, and the timer firing is an event.
- Asynchrony is not modelled: every message is handled to completion before the next. Interleaved awaits, such as two concurrent `add`s losing one entry, are not covered.
- Worker.FormatCode: the operator-spacing pass (worker.ts:94) is an opaque function argument. The other two JavaScript passes are modelled.
- LinterFormatter.FormatCode: the three JavaScript regular expressions (linterFormatter.ts:181-184) are one opaque function argument. `JSON.parse`/`JSON.stringify` are an argument in both formatters.
- Text.ToLower: lower-cases ASCII letters only. JavaScript's full Unicode case mapping is not modelled.
- Text: strings are sequences of Unicode scalar values, so a JavaScript string holding an unpaired surrogate cannot be represented. Lengths and positions that JavaScript reports are counted in UTF-16 code units through `Text.Utf16Length` and `Text.CodeUnitIndexOf`.
- Content.InitAll: `enabled` holds whatever `getFeatureState` returned, possibly a truthy non-boolean. The model keeps only its truthiness, which is all the source ever tests.
- JsObject: integer-like keys, which JavaScript orders first, and properties inherited from `Object.prototype` are not modelled.
- PasswordManager.ReadStore: a stored password store that is a non-empty string or a number is read as having no entries. JavaScript would index into the string.
- PasswordManager.HandleMessage: a message without `data` raises a TypeError in the source. Here every message carries its fields.
- PasswordManager.GeneratePassword: only integer lengths, or a missing one, are modelled. A fractional length is not.
- Storage.Value: numbers are mathematical integers. NaN, -0 and fractions are not modelled. Among numbers only 0 is falsy here, where JavaScript also treats NaN and -0 as falsy. No modelled operation stores a number.
- Storage: `StorageManager` catches and logs every storage failure. Here storage never fails, except in the background toggle, which writes without `StorageManager` and whose failures are modelled.
- Content.ToggleFeature: the catch branch (content.ts:74-77) is never taken, because no modelled `toggle` raises. Feature `init` runs to completion before messages arrive.
- Background.HandleMessage: a rejected active-tab query is not modelled. The tab query's outcome is the argument `activeTab`.
- DarkMode.Css: an intensity carries its number and the text it prints as. How JavaScript prints a number is not modelled, so the two are not tied together.
- Worker.HandleMessage: the catch that turns an exception into an error reply (worker.ts:34-44) is not modelled, because no modelled step raises.

## Findings

| source | as written | input that shows it | evidently intended | confidence | as-written member | corrected member |
|---|---|---|---|---|---|---|
| src/utils.ts:46-49 | `get` (line 23) turns every falsy stored value into `null`, so a stored `false` comes back as `null`. `getFeatureState` then reads it as the default `true`. | `setFeatureState('darkMode', false)`, then `getFeatureState('darkMode')` returns `true`. tests/utils.test.ts:33-40 expects `false`. | A stored `false` reads as disabled, and only a missing flag defaults to enabled. | not executed | Storage.DisabledFlagReadsEnabled | Storage.FeatureEnabledRoundTrip |
| src/features/passwordManager/passwordManager.ts:99-103 | Setup stores the key encrypted under a fixed passphrase (line 79). Unlock re-encrypts the candidate key and compares the ciphertext with the stored one. `CryptoUtils.encrypt` uses a passphrase with a random salt, so two encryptions of the same key differ. | `setup('password1')`, `lock()`, `unlock('password1')` returns "Invalid master key". | Unlock accepts exactly the key given at setup, for example by decrypting the stored verifier and comparing it with the candidate. | not executed | PasswordManager.SetupLockUnlockRefused | PasswordManager.UnlockAfterSetup |

The whole-system members follow the code as written:

- `Content.InitAll` starts every feature from the reader as written. `Content.ToggleOffLostOnReload` shows the consequence: a feature switched off is enabled again on the next page load.
- `PasswordManager.HandleMessage`, and with it `PasswordManager.RunKeepsInv`, dispatches the unlock as written. `PasswordManager.SetupLockUnlockMessages` shows the refusal at the level of messages.

The corrected behaviour is stated by separately named members:

- `Storage.FeatureEnabled`, `Content.InitAllCorrected`, `Content.ToggleSurvivesReloadCorrected` and `Background.ToggleThenReadCorrected`;
- `PasswordManager.Unlock` and `PasswordManager.HandleMessageCorrected`.

=== FILE: background.dfy ===
/** The background script (src/background.ts): default flags on install,
    reading the flags, toggling a feature everywhere, and routing the other
    messages to a tab.

    Tabs and message delivery are outside the model: the tabs a query
    returns, and whether each send succeeds, are arguments; the answer a
    tab sends back is an uninterpreted string. */
module Background {
  import opened Types
  import Storage
  import Content

  /** The four flag keys the source spells out: 'feature_darkMode',
      'feature_linterFormatter', 'feature_githubSearch' and
      'feature_passwordManager'. */
  const FlagKeys: seq<string> := [Storage.FeatureKey("darkMode"), Storage.FeatureKey("linterFormatter"),
                                  Storage.FeatureKey("githubSearch"), Storage.FeatureKey("passwordManager")]

  /** They are the storage keys of the registered features. */
  lemma {:induction false} FlagKeysMatchRegistry()
    ensures |FlagKeys| == |Content.Registry|
    ensures forall i :: 0 <= i < |FlagKeys| ==> FlagKeys[i] == Storage.FeatureKey(Content.Registry[i])
  {
    Content.RegistryNames();
  }

  /** `handleInstall(details)`: a fresh install enables every feature; an
      update (or any other reason) writes nothing. */
  function HandleInstall(st: Storage.Store, reason: string): (r: Storage.Store)
    ensures reason != "install" ==> r == st
    ensures reason == "install" ==>
      && (forall i :: 0 <= i < |FlagKeys| ==> FlagKeys[i] in r && r[FlagKeys[i]] == Storage.Bool(true))
      && Storage.SameExcept(st, r, set i | 0 <= i < |FlagKeys| :: FlagKeys[i])
  {
    if reason == "install" then
      st[FlagKeys[0] := Storage.Bool(true)][FlagKeys[1] := Storage.Bool(true)]
        [FlagKeys[2] := Storage.Bool(true)][FlagKeys[3] := Storage.Bool(true)]
    else st
  }

  /** After a fresh install every registered feature reads as enabled. */
  lemma {:induction false} InstallEnablesAll(st: Storage.Store)
    ensures forall name :: name in Content.Registry ==> Storage.FeatureEnabled(HandleInstall(st, "install"), name)
  {
    FlagKeysMatchRegistry();
    var r := HandleInstall(st, "install");
    forall name | name in Content.Registry ensures Storage.FeatureEnabled(r, name) {
      var i :| 0 <= i < |Content.Registry| && Content.Registry[i] == name;
      assert FlagKeys[i] == Storage.FeatureKey(name);
    }
  }

  /** `getFeatureStates()`: `storage.local.get(keys)` returns the stored
      values of those of the four keys that are present, as stored. */
  function GetFeatureStates(st: Storage.Store): (r: map<string, Storage.Value>)
    ensures forall k :: k in r <==> k in FlagKeys && k in st
    ensures forall k :: k in r ==> r[k] == st[k]
  {
    map k | k in FlagKeys && k in st :: st[k]
  }

  /** A tab as `tabs.query` reports it; the id may be missing. */
  datatype Tab = Tab(id: Option<int>)

  /** `if (tab.id)`: present and not 0. */
  predicate HasId(t: Tab) {
    t.id.Some? && t.id.value != 0
  }

  /** The ids `toggleFeature` sends to, in query order. */
  function Recipients(tabs: seq<Tab>): (r: seq<int>)
    ensures forall x :: x in r <==> exists i :: 0 <= i < |tabs| && HasId(tabs[i]) && tabs[i].id.value == x
    ensures |r| <= |tabs|
    ensures 0 !in r
  {
    if |tabs| == 0 then []
    else
      var rest := Recipients(tabs[1..]);
      assert forall i :: 0 <= i < |tabs[1..]| ==> tabs[1..][i] == tabs[i + 1];
      if HasId(tabs[0]) then [tabs[0].id.value] + rest else rest
  }

  /** Tabs are notified in the order the query lists them. */
  lemma {:induction false} RecipientsAppend(a: seq<Tab>, b: seq<Tab>)
    ensures Recipients(a + b) == Recipients(a) + Recipients(b)
    decreases |a|
  {
    if |a| > 0 {
      assert (a + b)[1..] == a[1..] + b;
      assert (a + b)[0] == a[0];
      RecipientsAppend(a[1..], b);
    } else {
      assert a + b == b;
    }
  }

  /** Where `toggleFeature` can raise outside the per-tab sends, whose own
      failures are caught one by one. */
  datatype ToggleFault = NoFault | StorageSetFails | TabQueryFails

  /** The storage after the toggle, the tabs notified (each is sent
      `{type: 'toggleFeature', featureName, enabled}`), and `success`. */
  datatype ToggleOutcome = ToggleOutcome(storage: Storage.Store, notified: seq<int>, success: bool)

  /** The key `feature_${featureName}`; a missing name prints as
      "undefined". */
  function FlagKey(featureName: Option<string>): string {
    Storage.FeatureKey(featureName.GetOr("undefined"))
  }

  /** `toggleFeature(featureName, enabled)`. */
  function ToggleFeature(st: Storage.Store, featureName: Option<string>, enabled: bool, tabs: seq<Tab>, fault: ToggleFault): (r: ToggleOutcome)
    ensures r.success <==> fault == NoFault
    ensures fault == StorageSetFails ==> r == ToggleOutcome(st, [], false)
    ensures fault != StorageSetFails ==>
      && Storage.Get(r.storage, FlagKey(featureName)) == (if enabled then Some(Storage.Bool(true)) else None)
      && FlagKey(featureName) in r.storage && r.storage[FlagKey(featureName)] == Storage.Bool(enabled)
      && Storage.SameExcept(st, r.storage, {FlagKey(featureName)})
    ensures fault == NoFault ==> r.notified == Recipients(tabs)
    ensures fault != NoFault ==> r.notified == []
  {
    match fault
    case StorageSetFails => ToggleOutcome(st, [], false)
    case TabQueryFails => ToggleOutcome(st[FlagKey(featureName) := Storage.Bool(enabled)], [], false)
    case NoFault => ToggleOutcome(st[FlagKey(featureName) := Storage.Bool(enabled)], Recipients(tabs), true)
  }

  /** As written, what a content script reads back after a background
      toggle is `true`, whichever way the flag was set. */
  lemma ToggleThenRead(st: Storage.Store, name: string, enabled: bool, tabs: seq<Tab>)
    ensures Storage.GetFeatureState(ToggleFeature(st, Some(name), enabled, tabs, NoFault).storage, name) == Storage.Bool(true)
  {
  }

  /** With the corrected reader, a successful background toggle is what
      every content script reads back for that feature. */
  lemma ToggleThenReadCorrected(st: Storage.Store, name: string, enabled: bool, tabs: seq<Tab>)
    ensures Storage.FeatureEnabled(ToggleFeature(st, Some(name), enabled, tabs, NoFault).storage, name) == enabled
  {
  }

  /** After a fresh install the popup reads all four flags as `true`. */
  lemma {:induction false} InstallThenStates(st: Storage.Store)
    ensures GetFeatureStates(HandleInstall(st, "install")) == map k | k in FlagKeys :: Storage.Bool(true)
  {
  }

  // ---------------------------------------------------------------------
  // Routing

  /** What the router reads of a message and its sender. `senderTab` is
      `sender.tab` (`None` when absent) with its possibly missing id;
      `activeTab` is `tabs[0]?.id` of the active-tab query. */
  datatype Request = Request(msgType: string, feature: Option<string>, senderTab: Option<Option<int>>, activeTab: Option<int>)

  /** Where a message goes. */
  datatype Route =
    | ReadStates
    | ToggleAll
    | ToSenderTab(tabId: Option<int>)
    | ToActiveTab(activeId: int)
    | NoRoute

  /** The `switch` of `handleMessage`. */
  function RouteOf(q: Request): (r: Route)
    ensures q.msgType == "getFeatureStates" <==> r == ReadStates
    ensures q.msgType == "toggleFeature" <==> r == ToggleAll
    ensures r.ToSenderTab? <==> q.msgType == "search" && q.senderTab.Some?
    ensures r.ToSenderTab? ==> r.tabId == q.senderTab.value
    ensures r.ToActiveTab? <==>
      && q.msgType !in {"getFeatureStates", "toggleFeature", "search"}
      && q.feature.Some? && q.feature.value != ""
      && q.activeTab.Some? && q.activeTab.value != 0
    ensures r.ToActiveTab? ==> r.activeId == q.activeTab.value
  {
    match q.msgType
    case "getFeatureStates" => ReadStates
    case "toggleFeature" => ToggleAll
    case "search" => if q.senderTab.Some? then ToSenderTab(q.senderTab.value) else NoRoute
    case _ =>
      if q.feature.Some? && q.feature.value != "" && q.activeTab.Some? && q.activeTab.value != 0 then ToActiveTab(q.activeTab.value)
      else NoRoute
  }

  /** The outcome of `tabs.sendMessage`: the tab's answer, or a rejection
      (no such tab, no receiver, or no id at all). */
  datatype Delivery = Delivered(answer: string) | Undeliverable

  /** `forwardToTab(tabId, message)`: a failed send is answered for. */
  function ForwardToTab(tabId: Option<int>, delivery: Delivery): (r: Reply)
    ensures delivery.Delivered? && tabId.Some? ==> r == Forwarded(delivery.answer)
    ensures delivery.Undeliverable? || tabId.None? ==> r == CommunicationFailed
  {
    if tabId.Some? && delivery.Delivered? then Forwarded(delivery.answer) else CommunicationFailed
  }

  /** The replies of `handleMessage`: the flags, `{success}` of a toggle,
      a tab's answer, `{success: false, error: 'Failed to communicate with
      tab'}`, `{success: false}`, or the rejection of an unguarded send. */
  datatype Reply =
    | States(states: map<string, Storage.Value>)
    | ToggleResult(success: bool)
    | Forwarded(answer: string)
    | CommunicationFailed
    | NotHandled
    | Rejected

  /** A message's full data: the request, and the toggle's fields. */
  datatype Message = Message(request: Request, featureName: Option<string>, enabled: bool)

  /** `handleMessage(message, sender)`, with the world's answers as
      arguments: the tabs of the toggle's query, the toggle's fault, and
      the outcome of the one send a forward makes. */
  function HandleMessage(st: Storage.Store, m: Message, tabs: seq<Tab>, fault: ToggleFault, delivery: Delivery): (r: (Storage.Store, Reply))
    ensures RouteOf(m.request) != ToggleAll ==> r.0 == st
    ensures RouteOf(m.request) == ReadStates ==> r.1 == States(GetFeatureStates(st))
    ensures RouteOf(m.request) == ToggleAll ==>
      var t := ToggleFeature(st, m.featureName, m.enabled, tabs, fault);
      r == (t.storage, ToggleResult(t.success))
    ensures RouteOf(m.request).ToSenderTab? ==> r.1 == ForwardToTab(m.request.senderTab.value, delivery)
    ensures RouteOf(m.request).ToActiveTab? ==>
      r.1 == (if delivery.Delivered? then Forwarded(delivery.answer) else Rejected)
    ensures RouteOf(m.request) == NoRoute ==> r.1 == NotHandled
    ensures m.request.msgType == "search" && m.request.senderTab.None? ==> r == (st, NotHandled)
  {
    match RouteOf(m.request)
    case ReadStates => (st, States(GetFeatureStates(st)))
    case ToggleAll =>
      var t := ToggleFeature(st, m.featureName, m.enabled, tabs, fault);
      (t.storage, ToggleResult(t.success))
    case ToSenderTab(id) => (st, ForwardToTab(id, delivery))
    case ToActiveTab(_) =>
      (st, match delivery
           case Delivered(answer) => Forwarded(answer)
           case Undeliverable => Rejected)
    case NoRoute => (st, NotHandled)
  }

  /** Only a 'toggleFeature' message writes storage, and it writes at most
      the one flag key. */
  lemma OnlyToggleWrites(st: Storage.Store, m: Message, tabs: seq<Tab>, fault: ToggleFault, delivery: Delivery)
    ensures var r := HandleMessage(st, m, tabs, fault, delivery);
      && (m.request.msgType != "toggleFeature" ==> r.0 == st)
      && Storage.SameExcept(st, r.0, {FlagKey(m.featureName)})
  {
  }

  /** How a forward fails: a message forwarded to the sender's tab is
      answered for when the send fails, one forwarded to the active tab
      leaves the rejection unanswered, and a delivered answer is passed
      back either way. */
  lemma ForwardingFailures(st: Storage.Store, m: Message, tabs: seq<Tab>, fault: ToggleFault, delivery: Delivery)
    ensures var r := HandleMessage(st, m, tabs, fault, delivery).1;
      && (RouteOf(m.request).ToSenderTab? ==> r != Rejected && (delivery.Undeliverable? ==> r == CommunicationFailed))
      && (RouteOf(m.request).ToActiveTab? && delivery.Undeliverable? ==> r == Rejected)
      && (RouteOf(m.request).ToActiveTab? && delivery.Delivered? ==> r == Forwarded(delivery.answer))
      && (RouteOf(m.request).ToSenderTab? && m.request.senderTab.value.Some? && delivery.Delivered? ==> r == Forwarded(delivery.answer))
  {
  }
}

=== FILE: content.dfy ===
/** The content script (src/content.ts): the registry of the four features,
    its message dispatcher, the toggle it forwards to a feature, and the
    cleanup on page unload.

    The features are the modelled ones, held together in `Features`;
    storage is shared between them. The page's code elements, which the
    linter/formatter reads when it is switched on, are an argument. */
module Content {
  import opened Types
  import Storage
  import DarkMode
  import LinterFormatter
  import GithubSearch
  import PasswordManager

  /** The registered features' names, in registration order. */
  const Registry: seq<string> := [DarkMode.Name, LinterFormatter.Name, GithubSearch.Name, PasswordManager.Name]

  /** The registry has the four names, each once. */
  lemma RegistryNames()
    ensures Registry == ["darkMode", "linterFormatter", "githubSearch", "passwordManager"]
    ensures forall i, j :: 0 <= i < j < |Registry| ==> Registry[i] != Registry[j]
    ensures forall i :: 0 <= i < |Registry| ==> Registry[i] != ""
  {
  }

  datatype Features = Features(
    dark: DarkMode.DarkMode,
    linter: LinterFormatter.Linter,
    search: GithubSearch.GithubSearch,
    vault: PasswordManager.Vault)

  const Initial := Features(DarkMode.Initial, LinterFormatter.Initial, GithubSearch.Initial, PasswordManager.Initial)

  predicate Inv(fs: Features) {
    DarkMode.Inv(fs.dark) && LinterFormatter.Inv(fs.linter) && PasswordManager.Inv(fs.vault)
  }

  /** Whether each feature thinks it is enabled. */
  function Enabled(fs: Features, name: string): bool
    requires name in Registry
  {
    if name == DarkMode.Name then fs.dark.enabled
    else if name == LinterFormatter.Name then fs.linter.enabled
    else if name == GithubSearch.Name then fs.search.enabled
    else fs.vault.enabled
  }

  /** `initializeFeatures()`: each feature's `init` sets `enabled` to what
      `getFeatureState` returns, and every later test of `enabled` reads it
      for truthiness. As written that answer is always truthy, so every
      feature starts enabled whatever is stored: the style is injected and
      the page's code elements are processed. */
  function InitAll(st: Storage.Store, found: seq<LinterFormatter.Element>): (r: Features)
    ensures Inv(r)
    ensures forall name :: name in Registry ==> Enabled(r, name) == Storage.Truthy(Storage.GetFeatureState(st, name))
    ensures forall name :: name in Registry ==> Enabled(r, name)
    ensures r.dark.handle.Some? && r.linter.observing && r.linter.processed == LinterFormatter.CodeIds(found)
  {
    forall name | name in Registry ensures Storage.Truthy(Storage.GetFeatureState(st, name)) {
      Storage.GetFeatureStateAlwaysEnabled(st, name);
    }
    Features(
      DarkMode.Init(DarkMode.Initial, Storage.Truthy(Storage.GetFeatureState(st, DarkMode.Name))),
      LinterFormatter.Init(LinterFormatter.Initial, Storage.Truthy(Storage.GetFeatureState(st, LinterFormatter.Name)), found),
      GithubSearch.Init(GithubSearch.Initial, Storage.Truthy(Storage.GetFeatureState(st, GithubSearch.Name))),
      PasswordManager.Init(PasswordManager.Initial, Storage.Truthy(Storage.GetFeatureState(st, PasswordManager.Name))))
  }

  /** `initializeFeatures()` with the corrected reader: each feature starts
      with the flag stored for it, a never-written flag meaning enabled. */
  function InitAllCorrected(st: Storage.Store, found: seq<LinterFormatter.Element>): (r: Features)
    ensures Inv(r)
    ensures forall name :: name in Registry ==> Enabled(r, name) == Storage.FeatureEnabled(st, name)
    ensures r.dark.handle.Some? <==> Storage.FeatureEnabled(st, DarkMode.Name)
  {
    Features(
      DarkMode.Init(DarkMode.Initial, Storage.FeatureEnabled(st, DarkMode.Name)),
      LinterFormatter.Init(LinterFormatter.Initial, Storage.FeatureEnabled(st, LinterFormatter.Name), found),
      GithubSearch.Init(GithubSearch.Initial, Storage.FeatureEnabled(st, GithubSearch.Name)),
      PasswordManager.Init(PasswordManager.Initial, Storage.FeatureEnabled(st, PasswordManager.Name)))
  }

  /** `{ success }` of `toggleFeature`. */
  datatype Toggled = Toggled(features: Features, storage: Storage.Store, success: bool)

  /** `toggleFeature(featureName, enabled)`: an unknown name changes
      nothing and fails; a registered one is toggled and succeeds. None of
      the four `toggle` methods raises, so the catch is never taken. */
  function ToggleFeature(fs: Features, st: Storage.Store, featureName: string, enabled: bool,
                         found: seq<LinterFormatter.Element>): (r: Toggled)
    requires Inv(fs)
    ensures Inv(r.features)
    ensures featureName !in Registry ==> r == Toggled(fs, st, false)
    ensures featureName in Registry ==>
      && r.success
      && Enabled(r.features, featureName) == enabled
      && r.storage == Storage.SetFeatureState(st, featureName, enabled)
      && (forall other :: other in Registry && other != featureName ==> Enabled(r.features, other) == Enabled(fs, other))
    ensures featureName == DarkMode.Name ==> (r.features.dark.handle.Some? <==> enabled)
    ensures featureName == PasswordManager.Name && !enabled ==> r.features.vault.isLocked
    ensures featureName == DarkMode.Name ==> r.features.dark == DarkMode.Toggle(fs.dark, st, enabled).0
    ensures featureName == LinterFormatter.Name ==> r.features.linter == LinterFormatter.Toggle(fs.linter, st, enabled, found).0
    ensures featureName == GithubSearch.Name ==> r.features.search == GithubSearch.Toggle(fs.search, st, enabled).0
    ensures featureName == PasswordManager.Name ==> r.features.vault == PasswordManager.Toggle(fs.vault, st, enabled).0
    ensures featureName != DarkMode.Name ==> r.features.dark == fs.dark
    ensures featureName != LinterFormatter.Name ==> r.features.linter == fs.linter
    ensures featureName != GithubSearch.Name ==> r.features.search == fs.search
    ensures featureName != PasswordManager.Name ==> r.features.vault == fs.vault
  {
    if featureName == DarkMode.Name then
      var (d, st') := DarkMode.Toggle(fs.dark, st, enabled);
      Toggled(fs.(dark := d), st', true)
    else if featureName == LinterFormatter.Name then
      var (l, st') := LinterFormatter.Toggle(fs.linter, st, enabled, found);
      Toggled(fs.(linter := l), st', true)
    else if featureName == GithubSearch.Name then
      var (g, st') := GithubSearch.Toggle(fs.search, st, enabled);
      Toggled(fs.(search := g), st', true)
    else if featureName == PasswordManager.Name then
      var (v, st') := PasswordManager.Toggle(fs.vault, st, enabled);
      Toggled(fs.(vault := v), st', true)
    else Toggled(fs, st, false)
  }

  /** A message as the content script reads it. `feature` is `None` when
      the message has no (or an empty, so falsy) `feature` field. */
  datatype Message = Message(msgType: string, featureName: string, enabled: bool, feature: Option<string>)

  /** What the dispatcher answers: a toggle result, nothing (the feature's
      own listener answers), or `{success: false, error: 'Unknown message
      type'}`. */
  datatype Reply = ToggleReply(success: bool) | NoAnswer | UnknownType

  datatype Handled = Handled(features: Features, storage: Storage.Store, reply: Reply)

  /** `handleMessage(message)`. */
  function HandleMessage(fs: Features, st: Storage.Store, m: Message, found: seq<LinterFormatter.Element>): (r: Handled)
    requires Inv(fs)
    ensures Inv(r.features)
    ensures m.msgType == "toggleFeature" ==>
      var t := ToggleFeature(fs, st, m.featureName, m.enabled, found);
      r == Handled(t.features, t.storage, ToggleReply(t.success))
    ensures m.msgType != "toggleFeature" ==> r.features == fs && r.storage == st
    ensures m.msgType != "toggleFeature" ==>
      (r.reply == NoAnswer <==> m.feature.Some? && m.feature.value in Registry)
    ensures m.msgType != "toggleFeature" && r.reply != NoAnswer ==> r.reply == UnknownType
  {
    if m.msgType == "toggleFeature" then
      var t := ToggleFeature(fs, st, m.featureName, m.enabled, found);
      Handled(t.features, t.storage, ToggleReply(t.success))
    else if m.feature.Some? && m.feature.value != "" && m.feature.value in Registry then
      Handled(fs, st, NoAnswer)
    else Handled(fs, st, UnknownType)
  }

  /** `cleanup()`: every feature defines `cleanup`, and each one runs. */
  function Cleanup(fs: Features): (r: Features)
    requires Inv(fs)
    ensures Inv(r)
    ensures r.dark.handle.None? && r.dark.page == []
    ensures r.linter.buttons == [] && !r.linter.observing
    ensures r.search.cache == map[]
    ensures r.vault.isLocked && r.vault.masterKey.None? && r.vault.deadline.None?
    ensures forall name :: name in Registry ==> Enabled(r, name) == Enabled(fs, name)
  {
    Features(
      DarkMode.Cleanup(fs.dark),
      LinterFormatter.Cleanup(fs.linter),
      GithubSearch.ClearCache(fs.search),
      PasswordManager.Cleanup(fs.vault))
  }

  /** Cleaning up twice is cleaning up once. */
  lemma CleanupIdempotent(fs: Features)
    requires Inv(fs)
    ensures Cleanup(Cleanup(fs)) == Cleanup(fs)
  {
    PasswordManager.LockIdempotent(fs.vault);
  }

  /** As written, switching a feature off does not survive a page reload:
      the flag `false` is stored, yet the next page's content script starts
      the feature enabled. */
  lemma {:induction false} ToggleOffLostOnReload(fs: Features, st: Storage.Store, name: string,
                                                  found: seq<LinterFormatter.Element>, later: seq<LinterFormatter.Element>)
    requires Inv(fs) && name in Registry
    ensures var t := ToggleFeature(fs, st, name, false, found);
      && !Enabled(t.features, name)
      && Storage.FeatureKey(name) in t.storage && t.storage[Storage.FeatureKey(name)] == Storage.Bool(false)
      && Enabled(InitAll(t.storage, later), name)
  {
  }

  /** With the corrected reader, a toggle written by one content script is
      what a fresh content script, on a later page load, starts with. */
  lemma {:induction false} ToggleSurvivesReloadCorrected(fs: Features, st: Storage.Store, name: string, enabled: bool,
                                                          found: seq<LinterFormatter.Element>, later: seq<LinterFormatter.Element>)
    requires Inv(fs) && name in Registry
    ensures var t := ToggleFeature(fs, st, name, enabled, found);
      Enabled(InitAllCorrected(t.storage, later), name) == enabled
  {
    Storage.FeatureEnabledRoundTrip(st, name, enabled, name);
  }
}

=== FILE: crypto.dfy ===
/** `CryptoUtils` (src/utils.ts): passphrase encryption and password
    generation.

    The AES cipher is not modelled: a `Cipher` is a pair of functions the
    caller supplies. `seal` takes an explicit salt, standing for the random
    salt a passphrase encryption draws on every call, so two encryptions of
    the same text under the same key may differ. `open` answers `None` where
    the library raises. What the source's tests expect of the cipher is
    stated as predicates that lemmas take as hypotheses. */
module Crypto {
  import opened Types

  datatype Cipher = Cipher(seal: (string, string, nat) -> string, open: (string, string) -> Option<string>)

  /** `CryptoUtils.encrypt(data, key)` with the salt drawn for this call. */
  function Encrypt(c: Cipher, data: string, key: string, salt: nat): string {
    c.seal(data, key, salt)
  }

  /** `CryptoUtils.decrypt(data, key)`: never raises; a failure reads as "". */
  function Decrypt(c: Cipher, data: string, key: string): (r: string)
    ensures c.open(data, key).None? ==> r == ""
    ensures c.open(data, key).Some? ==> r == c.open(data, key).value
  {
    match c.open(data, key)
    case Some(p) => p
    case None => ""
  }

  /** Decrypting with the key used to encrypt gives the plaintext back. */
  ghost predicate RoundTrips(c: Cipher) {
    forall d, k, n :: Decrypt(c, Encrypt(c, d, k, n), k) == d
  }

  /** Decrypting with any other key does not give the plaintext back. */
  ghost predicate RejectsWrongKey(c: Cipher) {
    forall d, k1, k2, n :: k1 != k2 ==> Decrypt(c, Encrypt(c, d, k1, n), k2) != d
  }

  /** A ciphertext is never the empty string. */
  ghost predicate NonEmptyOutput(c: Cipher) {
    forall d, k, n :: Encrypt(c, d, k, n) != ""
  }

  // ---------------------------------------------------------------------
  // Password generation

  const Lowercase := "abcdefghijklmnopqrstuvwxyz"
  const Uppercase := "ABCDEFGHIJKLMNOPQRSTUVWXYZ"
  const Digits := "0123456789"
  const Symbols := "!@#$%^&*()_+-=[]{}|;:,.<>?"

  /** `getRandomValues` refuses requests above this many bytes. */
  const MaxRandomBytes := 65536

  datatype CharsetOptions = CharsetOptions(
    includeUppercase: bool,
    includeLowercase: bool,
    includeNumbers: bool,
    includeSymbols: bool)

  const AllClasses := CharsetOptions(true, true, true, true)

  /** The enabled categories, concatenated lowercase, uppercase, digits, symbols. */
  function Charset(o: CharsetOptions): string {
    (if o.includeLowercase then Lowercase else "")
    + (if o.includeUppercase then Uppercase else "")
    + (if o.includeNumbers then Digits else "")
    + (if o.includeSymbols then Symbols else "")
  }

  /** The random source: the n-th 32-bit word is `Word(random(n))`. */
  type Random = nat -> nat

  function Word(x: nat): nat {
    x % 0x1_0000_0000
  }

  /** What `password += charset[w % charset.length]` appends for the word
      `w`. With an empty charset the index is NaN, the lookup yields
      `undefined`, and the string "undefined" is appended. */
  function Pick(charset: string, w: nat): string {
    if |charset| == 0 then "undefined" else [charset[w % |charset|]]
  }

  /** The first `n` picks, in order. */
  function Draw(charset: string, random: Random, n: nat): (r: string)
    ensures |charset| > 0 ==> |r| == n
    ensures |charset| > 0 ==> forall i :: 0 <= i < n ==> r[i] == charset[Word(random(i)) % |charset|]
    ensures |charset| == 0 ==> |r| == 9 * n
  {
    if n == 0 then "" else Draw(charset, random, n - 1) + Pick(charset, Word(random(n - 1)))
  }

  /** `CryptoUtils.generatePassword(length, options)`. `None` is the raise:
      a negative length (RangeError from `Uint32Array`) or more than 16384
      words (the random source's quota). */
  function GeneratePassword(length: int, o: CharsetOptions, random: Random): (r: Option<string>)
    ensures r.None? <==> length < 0 || length * 4 > MaxRandomBytes
    ensures r.Some? && |Charset(o)| > 0 ==> |r.value| == length
    ensures r.Some? && |Charset(o)| > 0 ==>
      forall i :: 0 <= i < |r.value| ==> r.value[i] == Charset(o)[Word(random(i)) % |Charset(o)|]
    ensures r.Some? && |Charset(o)| > 0 ==>
      forall i :: 0 <= i < |r.value| ==> r.value[i] in Charset(o)
    ensures r.Some? && |Charset(o)| == 0 ==> |r.value| == 9 * length
  {
    if length < 0 || length * 4 > MaxRandomBytes then None
    else Some(Draw(Charset(o), random, length))
  }

  /** The loop of `generatePassword`, one pick per iteration. */
  method GeneratePasswordLoop(length: nat, o: CharsetOptions, random: Random) returns (password: string)
    requires length * 4 <= MaxRandomBytes
    ensures GeneratePassword(length, o, random) == Some(password)
  {
    var charset := Charset(o);
    password := "";
    var i := 0;
    while i < length
      invariant i <= length
      invariant password == Draw(charset, random, i)
    {
      var w := Word(random(i));
      if |charset| == 0 {
        password := password + "undefined";
      } else {
        password := password + [charset[w % |charset|]];
      }
      i := i + 1;
    }
  }

  /** With only lowercase enabled, every character is in a..z. */
  lemma LowercaseOnly(length: int, random: Random)
    requires 0 <= length && length * 4 <= MaxRandomBytes
    ensures var r := GeneratePassword(length, CharsetOptions(false, true, false, false), random);
      r.Some? && |r.value| == length && forall i :: 0 <= i < |r.value| ==> 'a' <= r.value[i] <= 'z'
  {
    var o := CharsetOptions(false, true, false, false);
    assert Charset(o) == Lowercase;
    LowercaseLetters();
  }

  /** Every character of the lowercase class is a letter a..z. */
  lemma LowercaseLetters()
    ensures forall j :: 0 <= j < |Lowercase| ==> 'a' <= Lowercase[j] <= 'z'
  {
  }

  /** `generate` in the vault always draws from all four classes: 88 characters. */
  lemma AllClassesCharset()
    ensures Charset(AllClasses) == Lowercase + Uppercase + Digits + Symbols
    ensures |Charset(AllClasses)| == 88
  {
  }
}

=== FILE: dark_mode.dfy ===
/** The dark-mode feature (src/features/darkMode/darkMode.ts): one injected
    style element, created from the current intensity, and removed again.

    `handle` is the feature's `styleElement`; `page` lists the style
    elements the feature has injected that are still in the document, in
    injection order. A style element carries the intensity it was built
    from and the text of its style sheet. */
module DarkMode {
  import opened Types
  import opened Text
  import Storage

  const Name := "darkMode"

  /** An intensity: the number, and its text as JavaScript prints it into
      the template literal. */
  datatype Intensity = Intensity(value: real, text: string)

  /** An injected `<style>` element: what it was built from, and its text. */
  datatype Style = Style(intensity: Intensity, sheet: string)

  datatype DarkMode = DarkMode(enabled: bool, handle: Option<Style>, page: seq<Style>, intensity: Intensity)

  const Initial := DarkMode(true, None, [], Intensity(0.9, "0.9"))

  /** The style element `applyDarkMode` builds for an intensity. */
  function Styled(i: Intensity): Style {
    Style(i, Css(i.text))
  }

  /** The page holds exactly the style the handle points to, or nothing. */
  predicate Inv(d: DarkMode) {
    d.page == (if d.handle.Some? then [d.handle.value] else [])
  }

  /** `DOMUtils.removeElement(style)` on the injected styles. */
  function Without(page: seq<Style>, s: Style): (r: seq<Style>)
    ensures forall x :: x in r <==> x in page && x != s
    ensures |r| <= |page|
  {
    if |page| == 0 then []
    else if page[0] == s then Without(page[1..], s)
    else [page[0]] + Without(page[1..], s)
  }

  /** `applyDarkMode()`: inject one style built from the current intensity,
      unless one is already present. */
  function Apply(d: DarkMode): (r: DarkMode)
    ensures r.handle.Some? && r.enabled == d.enabled && r.intensity == d.intensity
    ensures d.handle.Some? ==> r == d
    ensures d.handle.None? ==> r.handle == Some(Styled(d.intensity)) && r.page == d.page + [Styled(d.intensity)]
    ensures Inv(d) ==> Inv(r) && |r.page| == 1
  {
    if d.handle.Some? then d
    else
      var s := Styled(d.intensity);
      d.(handle := Some(s), page := d.page + [s])
  }

  /** `removeDarkMode()`: remove the injected style, if any, and clear the
      handle. */
  function Remove(d: DarkMode): (r: DarkMode)
    ensures r.handle.None? && r.enabled == d.enabled && r.intensity == d.intensity
    ensures d.handle.None? ==> r == d
    ensures d.handle.Some? ==> forall x :: x in r.page <==> x in d.page && x != d.handle.value
    ensures Inv(d) ==> Inv(r) && r.page == []
  {
    if d.handle.Some? then d.(handle := None, page := Without(d.page, d.handle.value))
    else d
  }

  /** Applying twice injects once; removing twice removes once. */
  lemma ApplyRemoveIdempotent(d: DarkMode)
    ensures Apply(Apply(d)) == Apply(d)
    ensures Remove(Remove(d)) == Remove(d)
  {
  }

  /** `toggle(enable)`: record and persist the flag; afterwards a style is
      present iff the feature is enabled. */
  function Toggle(d: DarkMode, st: Storage.Store, enable: bool): (r: (DarkMode, Storage.Store))
    requires Inv(d)
    ensures Inv(r.0) && r.0.enabled == enable && r.0.intensity == d.intensity
    ensures r.0.handle.Some? <==> enable
    ensures |r.0.page| == (if enable then 1 else 0)
    ensures r.1 == Storage.SetFeatureState(st, Name, enable)
  {
    var st' := Storage.SetFeatureState(st, Name, enable);
    var d' := d.(enabled := enable);
    if enable then (Apply(d'), st') else (Remove(d'), st')
  }

  /** `setIntensity(value)`: when enabled the old style is replaced by one
      built from the new value; when disabled nothing is injected. */
  function SetIntensity(d: DarkMode, value: Intensity): (r: DarkMode)
    requires Inv(d)
    ensures Inv(r) && r.intensity == value && r.enabled == d.enabled
    ensures d.enabled ==> r.handle == Some(Styled(value)) && r.page == [Styled(value)]
    ensures !d.enabled ==> r.handle == d.handle && r.page == d.page
  {
    var d' := d.(intensity := value);
    if d.enabled then Apply(Remove(d')) else d'
  }

  /** `init()` with the feature flag read from storage. */
  function Init(d: DarkMode, enabled: bool): (r: DarkMode)
    requires Inv(d)
    ensures Inv(r) && r.enabled == enabled && r.intensity == d.intensity
    ensures enabled ==> r.handle.Some?
    ensures !enabled ==> r.handle == d.handle
  {
    var d' := d.(enabled := enabled);
    if enabled then Apply(d') else d'
  }

  /** `cleanup()`: no style is left in the page. */
  function Cleanup(d: DarkMode): (r: DarkMode)
    requires Inv(d)
    ensures Inv(r) && r.handle.None? && r.page == []
    ensures r.enabled == d.enabled && r.intensity == d.intensity
  {
    Remove(d)
  }

  /** From the initial state, a feature toggled off and on again carries a
      single style built from the initial intensity. */
  lemma ToggleOffOn(st: Storage.Store)
    ensures var (d1, st1) := Toggle(Initial, st, false);
      var (d2, _) := Toggle(d1, st1, true);
      d2.page == [Styled(Intensity(0.9, "0.9"))] && d2.enabled
  {
  }

  // ---------------------------------------------------------------------
  // The injected CSS

  /** The rule both filters share: `filter: invert(<intensity>)`. */
  function InvertRule(intensity: string): string {
    "filter: invert(" + intensity + ")"
  }

  const CssHead := "\n      html {\n        "
  const CssBetween := " hue-rotate(180deg) !important;\n        background-color: #fff !important;\n      }\n      \n      img, picture, video, canvas, svg, iframe {\n        "
  const CssTail := " hue-rotate(180deg) !important;\n      }\n      \n      * {\n        background-color: inherit !important;\n        scrollbar-color: #454a4d #202324 !important;\n      }\n    "

  /** The style sheet of `applyDarkMode`, with `intensity` the rendering of
      the current intensity as JavaScript prints numbers. */
  function Css(intensity: string): string {
    CssHead + InvertRule(intensity) + CssBetween + InvertRule(intensity) + CssTail
  }

  /** A text of the shape head, rule, between, rule, tail holds the rule
      twice, at two distinct positions. */
  lemma TwiceInSheet(head: string, rule: string, between: string, tail: string)
    ensures OccursAt(head + rule + between + rule + tail, rule, |head|)
    ensures OccursAt(head + rule + between + rule + tail, rule, |head| + |rule| + |between|)
  {
    OccursInMiddle(head, rule, between + rule + tail);
    assert head + rule + (between + rule + tail) == head + rule + between + rule + tail;
    OccursInMiddle(head + rule + between, rule, tail);
  }

  /** The sheet's two filter rules, for the page and for media, both
      invert by the given intensity. */
  lemma {:induction false} CssEmbedsIntensity(intensity: string)
    ensures exists i, j ::
      && 0 <= i < j
      && OccursAt(Css(intensity), InvertRule(intensity), i)
      && OccursAt(Css(intensity), InvertRule(intensity), j)
  {
    TwiceInSheet(CssHead, InvertRule(intensity), CssBetween, CssTail);
    var i, j := |CssHead|, |CssHead| + |InvertRule(intensity)| + |CssBetween|;
    assert OccursAt(Css(intensity), InvertRule(intensity), i);
    assert OccursAt(Css(intensity), InvertRule(intensity), j);
  }

  /** The style `applyDarkMode` injects into a page without one carries
      the current intensity's `invert` filter twice, for the page and for
      media. */
  lemma {:induction false} AppliedSheetInverts(d: DarkMode)
    requires d.handle.None?
    ensures var sheet := Apply(d).handle.value.sheet;
      exists i, j ::
        && 0 <= i < j
        && OccursAt(sheet, InvertRule(d.intensity.text), i)
        && OccursAt(sheet, InvertRule(d.intensity.text), j)
  {
    CssEmbedsIntensity(d.intensity.text);
  }
}

=== FILE: dom.dfy ===
/** `DOMUtils.isCodeElement` (src/utils.ts): an element is taken to hold
    code by its tag name or its class list. The element is reduced to the
    two things the test reads. */
module Dom {
  import Text

  const CodeTags: seq<string> := ["pre", "code", "textarea"]

  /** `element.tagName.toLowerCase()` is one of the code tags, or the class
      list contains "code" or "highlight". */
  predicate IsCodeElement(tagName: string, classes: seq<string>) {
    Text.ToLower(tagName) in CodeTags || "code" in classes || "highlight" in classes
  }

  /** The test is blind to the case of the tag name. */
  lemma IsCodeElementCaseBlind(tagName: string, classes: seq<string>)
    ensures IsCodeElement(Text.ToLower(tagName), classes) == IsCodeElement(tagName, classes)
  {
    Text.ToLowerIdempotent(tagName);
  }

  /** Without one of the two class names, only the tag decides; a plain
      `div` is not code, `PRE` and `code` are, whatever their classes. */
  lemma IsCodeElementCases(classes: seq<string>)
    ensures IsCodeElement("PRE", classes) && IsCodeElement("code", classes) && IsCodeElement("TextArea", classes)
    ensures IsCodeElement("div", ["code"]) && IsCodeElement("span", ["x", "highlight"])
    ensures "code" !in classes && "highlight" !in classes ==> !IsCodeElement("div", classes)
  {
    assert Text.ToLower("PRE") == "pre";
    assert Text.ToLower("code") == "code";
    assert Text.ToLower("TextArea") == "textarea";
    assert Text.ToLower("div") == "div";
  }
}

=== FILE: github_search.dfy ===
/** The GitHub search feature (src/features/githubSearch/githubSearch.ts):
    a search that answers from a five-minute cache and otherwise asks the
    GitHub API, caching what it gets.

    The request itself is out of reach: its outcome is an argument, and the
    result says whether the request was made at all. Clock readings are
    arguments too: `now` is read before the cache lookup, `arrival` when
    the response has been decoded. */
module GithubSearch {
  import opened Types
  import Storage

  const Name := "githubSearch"

  /** `cacheTimeout`: five minutes, in milliseconds. */
  const CacheTimeout := 5 * 60 * 1000

  datatype SearchType = Users | Repositories

  function TypeName(t: SearchType): string {
    match t
    case Users => "users"
    case Repositories => "repositories"
  }

  datatype CacheEntry = CacheEntry(data: SearchResult, timestamp: int)

  datatype GithubSearch = GithubSearch(enabled: bool, cache: map<string, CacheEntry>)

  const Initial := GithubSearch(true, map[])

  /** What the request came to: a response with its status and, when the
      body decodes as JSON, its contents; or a request that raised. */
  datatype FetchOutcome = Response(status: int, body: Option<SearchResult>) | NetworkError

  /** `response.ok`. */
  predicate Ok(status: int) {
    200 <= status <= 299
  }

  /** The outcomes that produce data: an OK status with a decodable body. */
  predicate Succeeded(outcome: FetchOutcome) {
    outcome.Response? && Ok(outcome.status) && outcome.body.Some?
  }

  /** The state after a search, its answer (`None` for `null`), and
      whether the request was made. */
  datatype SearchOutcome = SearchOutcome(search: GithubSearch, result: Option<SearchResult>, fetched: bool)

  /** The cache key `type:query`. */
  function CacheKey(t: SearchType, query: string): (k: string)
    ensures k == TypeName(t) + ":" + query
    ensures k[|TypeName(t)| + 1..] == query
  {
    TypeName(t) + ":" + query
  }

  /** The sixth character of a key tells the two types apart. */
  lemma SixthCharacter(t: SearchType, q: string)
    ensures |CacheKey(t, q)| > 5 && CacheKey(t, q)[5] == if t == Users then ':' else 'i'
  {
  }

  /** Since neither type name contains ':', the key determines both the
      type and the query. */
  lemma CacheKeyInjective(t1: SearchType, q1: string, t2: SearchType, q2: string)
    ensures CacheKey(t1, q1) == CacheKey(t2, q2) <==> t1 == t2 && q1 == q2
  {
    SixthCharacter(t1, q1);
    SixthCharacter(t2, q2);
    if CacheKey(t1, q1) == CacheKey(t2, q2) {
      var k := CacheKey(t1, q1);
      assert q1 == k[|TypeName(t1)| + 1..];
    }
  }

  /** An entry is served iff it is younger than the timeout, strictly. */
  predicate Fresh(g: GithubSearch, key: string, now: int) {
    key in g.cache && now - g.cache[key].timestamp < CacheTimeout
  }

  /** `search(query, type)` with the cache enabled. */
  function Search(g: GithubSearch, query: string, t: SearchType, now: int, arrival: int, outcome: FetchOutcome): (r: SearchOutcome)
    ensures r.search.enabled == g.enabled
    ensures query == "" ==> r == SearchOutcome(g, None, false)
    ensures query != "" && Fresh(g, CacheKey(t, query), now) ==>
      r == SearchOutcome(g, Some(g.cache[CacheKey(t, query)].data), false)
    ensures query != "" && !Fresh(g, CacheKey(t, query), now) ==> r.fetched
    ensures r.fetched && Succeeded(outcome) ==>
      && r.result == outcome.body
      && r.search.cache == g.cache[CacheKey(t, query) := CacheEntry(outcome.body.value, arrival)]
    ensures r.fetched && !Succeeded(outcome) ==> r.result.None? && r.search == g
  {
    if query == "" then SearchOutcome(g, None, false)
    else
      var key := CacheKey(t, query);
      if key in g.cache && now - g.cache[key].timestamp < CacheTimeout then
        SearchOutcome(g, Some(g.cache[key].data), false)
      else
        match outcome
        case NetworkError => SearchOutcome(g, None, true)
        case Response(status, body) =>
          if !Ok(status) then
            // 403 is answered with null directly, every other status by a
            // throw that the catch turns into null.
            SearchOutcome(g, None, true)
          else if body.None? then SearchOutcome(g, None, true)
          else SearchOutcome(g.(cache := g.cache[key := CacheEntry(body.value, arrival)]), body, true)
  }

  /** A search leaves every other cache entry as it was. */
  lemma SearchFrame(g: GithubSearch, query: string, t: SearchType, now: int, arrival: int, outcome: FetchOutcome, other: string)
    requires other != CacheKey(t, query)
    ensures var c := Search(g, query, t, now, arrival, outcome).search.cache;
      (other in c <==> other in g.cache) && (other in c ==> c[other] == g.cache[other])
  {
  }

  /** After a successful request, the same search answers from the cache,
      without a request, for exactly five minutes after the response
      arrived. */
  lemma CachedUntilTimeout(g: GithubSearch, query: string, t: SearchType, now: int, arrival: int, outcome: FetchOutcome,
                           later: int, arrival2: int, outcome2: FetchOutcome)
    requires query != "" && !Fresh(g, CacheKey(t, query), now) && Succeeded(outcome)
    ensures var g1 := Search(g, query, t, now, arrival, outcome).search;
      var r2 := Search(g1, query, t, later, arrival2, outcome2);
      && (later - arrival < CacheTimeout ==> !r2.fetched && r2.result == outcome.body)
      && (later - arrival >= CacheTimeout ==> r2.fetched)
  {
  }

  /** `handleSearch(data)`: nothing while disabled. */
  function HandleSearch(g: GithubSearch, query: string, t: SearchType, now: int, arrival: int, outcome: FetchOutcome): (r: SearchOutcome)
    ensures !g.enabled ==> r == SearchOutcome(g, None, false)
    ensures g.enabled ==> r == Search(g, query, t, now, arrival, outcome)
  {
    if !g.enabled then SearchOutcome(g, None, false)
    else Search(g, query, t, now, arrival, outcome)
  }

  /** The listener `init` registers: a 'search' message for this feature
      is answered by `handleSearch`; any other message gets no answer
      (`None`). */
  function OnMessage(g: GithubSearch, feature: string, msgType: string, query: string, t: SearchType,
                     now: int, arrival: int, outcome: FetchOutcome): (r: Option<SearchOutcome>)
    ensures r.Some? <==> feature == Name && msgType == "search"
    ensures r.Some? ==> r.value == HandleSearch(g, query, t, now, arrival, outcome)
  {
    if feature == Name && msgType == "search" then Some(HandleSearch(g, query, t, now, arrival, outcome))
    else None
  }

  /** `toggle(enable)`: record and persist the flag; the cache stays. */
  function Toggle(g: GithubSearch, st: Storage.Store, enable: bool): (r: (GithubSearch, Storage.Store))
    ensures r.0.enabled == enable && r.0.cache == g.cache
    ensures r.1 == Storage.SetFeatureState(st, Name, enable)
  {
    (g.(enabled := enable), Storage.SetFeatureState(st, Name, enable))
  }

  /** `init()` with the flag read from storage. */
  function Init(g: GithubSearch, enabled: bool): (r: GithubSearch)
    ensures r.enabled == enabled && r.cache == g.cache
  {
    g.(enabled := enabled)
  }

  /** `clearCache()`; `cleanup()` does the same. */
  function ClearCache(g: GithubSearch): (r: GithubSearch)
    ensures r.cache == map[] && r.enabled == g.enabled
  {
    g.(cache := map[])
  }

  /** After the cache is cleared, every non-empty search makes a request. */
  lemma ClearedCacheFetches(g: GithubSearch, query: string, t: SearchType, now: int, arrival: int, outcome: FetchOutcome)
    requires query != ""
    ensures Search(ClearCache(g), query, t, now, arrival, outcome).fetched
  {
  }
}

=== FILE: js_object.dfy ===
/** A plain JavaScript object with string keys, as the password store is
    (`{ [site: string]: PasswordEntry }`). Its properties keep insertion
    order: assigning to an existing key replaces the value in place,
    assigning to a new key appends, `delete` removes the key.
    (Integer-like keys, which JavaScript lists first, are not modelled.) */
module JsObject {
  import opened Types

  datatype Slot<V> = Slot(key: string, val: V)

  /** Properties in insertion order. */
  type Object<V> = seq<Slot<V>>

  /** No key appears twice. */
  predicate Wf<V>(o: Object<V>) {
    forall i, j :: 0 <= i < j < |o| ==> o[i].key != o[j].key
  }

  function Keys<V>(o: Object<V>): set<string> {
    set i | 0 <= i < |o| :: o[i].key
  }

  /** The keys of an object with one more property in front. */
  lemma KeysCons<V>(s: Slot<V>, o: Object<V>)
    ensures Keys([s] + o) == {s.key} + Keys(o)
  {
    var c := [s] + o;
    forall x | x in Keys(o) ensures x in Keys(c) {
      var i :| 0 <= i < |o| && o[i].key == x;
      assert c[i + 1].key == x;
    }
    assert c[0].key == s.key;
  }

  /** The position of the first property named `k`. */
  function KeyIndex<V>(o: Object<V>, k: string): (i: nat)
    requires k in Keys(o)
    ensures i < |o| && o[i].key == k
    ensures forall j :: 0 <= j < i ==> o[j].key != k
    decreases |o|
  {
    if o[0].key == k then 0
    else
      assert Keys(o) == {o[0].key} + Keys(o[1..]);
      1 + KeyIndex(o[1..], k)
  }

  /** `o[k]`, `undefined` when the key is missing. */
  function Lookup<V>(o: Object<V>, k: string): (r: Option<V>)
    ensures r.None? <==> k !in Keys(o)
    ensures k in Keys(o) ==> r == Some(o[KeyIndex(o, k)].val)
    decreases |o|
  {
    if |o| == 0 then None
    else if o[0].key == k then Some(o[0].val)
    else
      assert Keys(o) == {o[0].key} + Keys(o[1..]);
      Lookup(o[1..], k)
  }

  /** An object with one more property in front is well formed iff the
      new key is fresh and the rest is well formed. */
  lemma WfCons<V>(s: Slot<V>, o: Object<V>)
    ensures Wf([s] + o) <==> s.key !in Keys(o) && Wf(o)
  {
    var c := [s] + o;
    assert forall i :: 0 <= i < |o| ==> c[i + 1] == o[i];
    if Wf(c) {
      forall i | 0 <= i < |o| ensures o[i].key != s.key {
        assert c[0].key != c[i + 1].key;
      }
      forall i, j | 0 <= i < j < |o| ensures o[i].key != o[j].key {
        assert c[i + 1].key != c[j + 1].key;
      }
    }
    if s.key !in Keys(o) && Wf(o) {
      forall i, j | 0 <= i < j < |c| ensures c[i].key != c[j].key {
        if i == 0 {
          assert o[j - 1].key in Keys(o);
        }
      }
    }
  }

  /** `o[k] = v`. */
  function Put<V>(o: Object<V>, k: string, v: V): (r: Object<V>)
    ensures Keys(r) == Keys(o) + {k}
    ensures Wf(o) ==> Wf(r)
    decreases |o|
  {
    if |o| == 0 then
      KeysCons(Slot(k, v), o);
      WfCons(Slot(k, v), o);
      [Slot(k, v)]
    else
      assert o == [o[0]] + o[1..];
      KeysCons(o[0], o[1..]);
      WfCons(o[0], o[1..]);
      if o[0].key == k then
        KeysCons(Slot(k, v), o[1..]);
        WfCons(Slot(k, v), o[1..]);
        [Slot(k, v)] + o[1..]
      else
        var rest := Put(o[1..], k, v);
        KeysCons(o[0], rest);
        WfCons(o[0], rest);
        [o[0]] + rest
  }

  /** Where the property goes: an existing key keeps its place, a new key
      is appended. */
  lemma {:induction false} PutPlacement<V>(o: Object<V>, k: string, v: V)
    ensures k in Keys(o) ==> |Put(o, k, v)| == |o|
    ensures k in Keys(o) ==> Put(o, k, v) == o[KeyIndex(o, k) := Slot(k, v)]
    ensures k !in Keys(o) ==> Put(o, k, v) == o + [Slot(k, v)]
  {
    if k in Keys(o) {
      PutInPlace(o, k, v);
    } else {
      PutAppends(o, k, v);
    }
  }

  /** Past a first property with another key, `o[k] = v` works on the rest. */
  lemma PutCons<V>(o: Object<V>, k: string, v: V)
    requires |o| > 0 && o[0].key != k
    ensures Put(o, k, v) == [o[0]] + Put(o[1..], k, v)
  {
  }

  lemma {:induction false} PutInPlace<V>(o: Object<V>, k: string, v: V)
    requires k in Keys(o)
    ensures Put(o, k, v) == o[KeyIndex(o, k) := Slot(k, v)]
    decreases |o|
  {
    if o[0].key == k {
      assert Put(o, k, v) == [Slot(k, v)] + o[1..];
    } else {
      KeyIndexCons(o, k);
      PutCons(o, k, v);
      PutInPlace(o[1..], k, v);
      UpdateCons(o, KeyIndex(o, k), Slot(k, v));
    }
  }

  lemma {:induction false} PutAppends<V>(o: Object<V>, k: string, v: V)
    requires k !in Keys(o)
    ensures Put(o, k, v) == o + [Slot(k, v)]
    decreases |o|
  {
    if |o| > 0 {
      assert o[0].key != k;
      KeyInTail(o, k);
      PutCons(o, k, v);
      PutAppends(o[1..], k, v);
      assert [o[0]] + (o[1..] + [Slot(k, v)]) == o + [Slot(k, v)];
    }
  }

  /** Every property after `o[k] = v` is the new one or one `o` already
      had, and the new one is there. */
  lemma {:induction false} PutSlots<V>(o: Object<V>, k: string, v: V)
    ensures forall j :: 0 <= j < |Put(o, k, v)| ==> Put(o, k, v)[j] == Slot(k, v) || Put(o, k, v)[j] in o
    ensures exists j :: 0 <= j < |Put(o, k, v)| && Put(o, k, v)[j] == Slot(k, v)
    decreases |o|
  {
    var r := Put(o, k, v);
    if |o| == 0 {
      assert r[0] == Slot(k, v);
    } else if o[0].key == k {
      assert r[0] == Slot(k, v);
      assert forall j :: 1 <= j < |r| ==> r[j] == o[j];
    } else {
      var rest := Put(o[1..], k, v);
      PutSlots(o[1..], k, v);
      assert r == [o[0]] + rest;
      assert forall j :: 1 <= j < |r| ==> r[j] == rest[j - 1];
      var j0 :| 0 <= j0 < |rest| && rest[j0] == Slot(k, v);
      assert r[j0 + 1] == Slot(k, v);
      forall j | 0 <= j < |r| ensures r[j] == Slot(k, v) || r[j] in o {
        if j > 0 {
          assert r[j] == rest[j - 1];
          if rest[j - 1] in o[1..] {
            var m :| 0 <= m < |o[1..]| && o[1..][m] == rest[j - 1];
            assert o[m + 1] == r[j];
          }
        }
      }
    }
  }

  /** `delete o[k]`. */
  function Delete<V>(o: Object<V>, k: string): (r: Object<V>)
    ensures Wf(o) ==> Wf(r) && Keys(r) == Keys(o) - {k}
    ensures Keys(r) <= Keys(o)
    ensures k !in Keys(o) ==> r == o
    decreases |o|
  {
    if |o| == 0 then o
    else if o[0].key == k then
      assert Keys(o) == {k} + Keys(o[1..]);
      assert Wf(o) ==> k !in Keys(o[1..]);
      o[1..]
    else
      var rest := Delete(o[1..], k);
      assert Keys(o) == {o[0].key} + Keys(o[1..]);
      KeysCons(o[0], rest);
      assert Wf(o) ==> o[0].key !in Keys(o[1..]);
      if k !in Keys(o) then o else [o[0]] + rest
  }

  /** `delete o[k]` takes out the property named `k` and keeps the others
      in their order. */
  lemma {:induction false} DeleteAt<V>(o: Object<V>, k: string)
    ensures k in Keys(o) ==> Delete(o, k) == o[..KeyIndex(o, k)] + o[KeyIndex(o, k) + 1..]
    decreases |o|
  {
    if k in Keys(o) && o[0].key != k {
      KeyIndexCons(o, k);
      DeleteCons(o, k);
      DeleteAt(o[1..], k);
      SpliceCons(o, KeyIndex(o, k));
    }
  }

  /** Past a first property with another key, `delete o[k]` works on the
      rest. */
  lemma DeleteCons<V>(o: Object<V>, k: string)
    requires |o| > 0 && o[0].key != k && k in Keys(o)
    ensures Delete(o, k) == [o[0]] + Delete(o[1..], k)
  {
  }

  /** A key that is not the first property's is among the later ones. */
  lemma KeyInTail<V>(o: Object<V>, k: string)
    requires |o| > 0 && o[0].key != k
    ensures k in Keys(o) <==> k in Keys(o[1..])
  {
    assert Keys(o) == {o[0].key} + Keys(o[1..]);
  }

  /** Replacing position `i > 0` of `o` is replacing `i - 1` in its tail. */
  lemma UpdateCons<V>(o: seq<V>, i: nat, x: V)
    requires 0 < i < |o|
    ensures [o[0]] + o[1..][i - 1 := x] == o[i := x]
  {
  }

  /** Past a first property with another key, `k` is found one place
      further on in the rest. */
  lemma KeyIndexCons<V>(o: Object<V>, k: string)
    requires |o| > 0 && o[0].key != k && k in Keys(o)
    ensures k in Keys(o[1..]) && KeyIndex(o, k) == KeyIndex(o[1..], k) + 1
  {
    KeyInTail(o, k);
  }

  /** Cutting position `i > 0` out of `o` is cutting `i - 1` out of its tail. */
  lemma SpliceCons<V>(o: seq<V>, i: nat)
    requires 0 < i < |o|
    ensures [o[0]] + (o[1..][..i - 1] + o[1..][i..]) == o[..i] + o[i + 1..]
  {
    assert o[1..][..i - 1] == o[1..i];
    assert o[1..][i..] == o[i + 1..];
    assert [o[0]] + o[1..i] == o[..i];
  }

  /** After `o[k] = v`, reading `k` gives `v` and every other key reads as before. */
  lemma {:induction false} LookupPut<V>(o: Object<V>, k: string, v: V, k': string)
    ensures Lookup(Put(o, k, v), k') == if k' == k then Some(v) else Lookup(o, k')
    decreases |o|
  {
    if |o| == 0 {
    } else if o[0].key == k {
      assert Put(o, k, v)[1..] == o[1..];
    } else {
      assert Put(o, k, v)[1..] == Put(o[1..], k, v);
      LookupPut(o[1..], k, v, k');
    }
  }

  /** After `delete o[k]`, `k` is missing and every other key reads as before. */
  lemma {:induction false} LookupDelete<V>(o: Object<V>, k: string, k': string)
    requires Wf(o)
    ensures Lookup(Delete(o, k), k') == if k' == k then None else Lookup(o, k')
    decreases |o|
  {
    if |o| == 0 {
    } else if o[0].key == k {
    } else if k !in Keys(o) {
    } else {
      assert Delete(o, k)[1..] == Delete(o[1..], k);
      LookupDelete(o[1..], k, k');
    }
  }

  /** `Object.values(o)`. */
  function Values<V>(o: Object<V>): (r: seq<V>)
    ensures |r| == |o|
    ensures forall i :: 0 <= i < |o| ==> r[i] == o[i].val
  {
    seq(|o|, i requires 0 <= i < |o| => o[i].val)
  }
}

=== FILE: linter_formatter.dfy ===
/** The linter/formatter feature (src/features/linterFormatter/linterFormatter.ts):
    language detection from class names, the in-page formatting fallbacks,
    and the bookkeeping that gives each code element at most one format
    button.

    The page is reduced to the elements the code-element query returns, in
    document order; the mutation observer is a flag; the JavaScript regex
    rewrite and JSON pretty-printing are abstract functions. */
module LinterFormatter {
  import opened Types
  import opened Text
  import Dom
  import Storage
  import Worker

  const Name := "linterFormatter"

  // ---------------------------------------------------------------------
  // Language detection

  /** The keys of the language table, in the order they are tried. */
  const LanguageKeys: seq<string> :=
    ["javascript", "typescript", "python", "java", "cpp", "css", "html", "json", "markdown"]

  /** The position of the first key at or after `i` that occurs in
      `classNames`, or `|LanguageKeys|` when none does. */
  function FirstKeyFrom(classNames: string, i: nat): (k: nat)
    requires i <= |LanguageKeys|
    ensures i <= k <= |LanguageKeys|
    ensures forall j :: i <= j < k ==> !Contains(classNames, LanguageKeys[j])
    ensures k < |LanguageKeys| ==> Contains(classNames, LanguageKeys[k])
    decreases |LanguageKeys| - i
  {
    if i == |LanguageKeys| then i
    else if Contains(classNames, LanguageKeys[i]) then i
    else FirstKeyFrom(classNames, i + 1)
  }

  /** `detectLanguage(element)` from the element's `className`: the first
      key of the table contained in the lower-cased class names, else
      "javascript". */
  function DetectLanguage(className: string): (r: string)
    ensures r in LanguageKeys
    ensures
      || (exists k :: 0 <= k < |LanguageKeys| && r == LanguageKeys[k]
            && Contains(ToLower(className), LanguageKeys[k])
            && forall j :: 0 <= j < k ==> !Contains(ToLower(className), LanguageKeys[j]))
      || (r == "javascript" && forall j :: 0 <= j < |LanguageKeys| ==> !Contains(ToLower(className), LanguageKeys[j]))
  {
    var k := FirstKeyFrom(ToLower(className), 0);
    if k < |LanguageKeys| then LanguageKeys[k] else "javascript"
  }

  /** Because "javascript" is tried before "java", a class naming
      JavaScript is never read as Java; "java" is chosen only when none of
      the three keys before it occurs. */
  lemma JavaScriptBeforeJava(className: string)
    ensures Contains(ToLower(className), "javascript") ==> DetectLanguage(className) == "javascript"
    ensures DetectLanguage(className) == "java" ==>
      !Contains(ToLower(className), "javascript") && Contains(ToLower(className), "java")
  {
    if DetectLanguage(className) == "java" {
      var k := FirstKeyFrom(ToLower(className), 0);
      assert LanguageKeys[k] == "java";
      assert k == 3;
    }
  }

  // ---------------------------------------------------------------------
  // In-page formatting

  /** `formatCode(code, language)` of the feature. `jsRewrite` stands for
      the three regex replacements of the JavaScript branch; `json` for
      parse-then-pretty-print, `None` where parsing raises. */
  function FormatCode(code: string, language: string, jsRewrite: string -> string, json: string -> Option<string>): (r: LinterResult)
    ensures r.success && r.errors.None? && r.formatted.Some?
    ensures language !in {"javascript", "typescript", "json"} ==> r.formatted == Some(code)
    ensures language == "json" ==> r.formatted == Some(json(code).GetOr(code))
    ensures language in {"javascript", "typescript"} ==> r.formatted == Some(jsRewrite(code))
  {
    if language == "javascript" || language == "typescript" then LinterResult(true, Some(jsRewrite(code)), None)
    else if language == "json" then
      match json(code)
      case Some(pretty) => LinterResult(true, Some(pretty), None)
      case None => LinterResult(true, Some(code), None)
    else LinterResult(true, Some(code), None)
  }

  /** The feature's in-page formatter and the worker's agree on valid JSON
      and on the languages neither rewrites, and part ways elsewhere: on
      JSON that does not parse the feature succeeds with the code as it
      was while the worker fails with 'Invalid JSON', and CSS is
      reformatted by the worker only. */
  lemma FormatCodeAgainstWorker(code: string, language: string, jsRewrite: string -> string,
                                spacing: string -> string, json: string -> Option<string>)
    ensures var f := FormatCode(code, language, jsRewrite, json);
      var w := Worker.FormatCode(code, language, spacing, json);
      && (language == "json" && json(code).Some? ==> f == w)
      && (language == "json" && json(code).None? ==> f == LinterResult(true, Some(code), None) && !w.success)
      && (language == "css" ==> f.formatted == Some(code) && w.formatted == Some(Worker.CssPieces(code)))
      && (language !in {"javascript", "typescript", "json", "css"} ==> f == w)
  {
  }

  // ---------------------------------------------------------------------
  // Format buttons

  /** What the feature reads of a page element. `id` is the element's
      identity. */
  datatype Element = Element(id: nat, tagName: string, classes: seq<string>, parentTag: Option<string>)

  /** `enabled`, whether the observer is running, the ids in
      `processedElements`, and the elements that carry a format button, in
      the order the buttons were added. */
  datatype Linter = Linter(enabled: bool, observing: bool, processed: set<nat>, buttons: seq<nat>)

  const Initial := Linter(true, false, {}, [])

  /** No element has two buttons, and every element with a button has
      been processed. */
  predicate Inv(l: Linter) {
    && (forall i, j :: 0 <= i < j < |l.buttons| ==> l.buttons[i] != l.buttons[j])
    && (forall i :: 0 <= i < |l.buttons| ==> l.buttons[i] in l.processed)
  }

  predicate IsCode(e: Element) {
    Dom.IsCodeElement(e.tagName, e.classes)
  }

  /** An inline `code` element: its parent is missing or is not a `pre`. */
  predicate IsInline(e: Element) {
    ToLower(e.tagName) == "code" && (e.parentTag.None? || ToLower(e.parentTag.value) != "pre")
  }

  /** `addFormatButton(element)`: no button for inline code; otherwise the
      element is wrapped and given a button when it has a parent. */
  function AddFormatButton(l: Linter, e: Element): (r: Linter)
    ensures r.enabled == l.enabled && r.observing == l.observing && r.processed == l.processed
    ensures IsInline(e) || e.parentTag.None? ==> r == l
    ensures !IsInline(e) && e.parentTag.Some? ==> r.buttons == l.buttons + [e.id]
  {
    if IsInline(e) then l
    else if e.parentTag.Some? then l.(buttons := l.buttons + [e.id])
    else l
  }

  /** One pass of the `forEach` in `applyToExistingElements`. */
  function ProcessAll(l: Linter, found: seq<Element>): Linter
    decreases |found|
  {
    if |found| == 0 then l
    else
      ProcessAll(Visit(l, found[0]), found[1..])
  }

  /** The ids of the code elements among `found`. */
  function CodeIds(found: seq<Element>): set<nat> {
    set i | 0 <= i < |found| && IsCode(found[i]) :: found[i].id
  }

  /** The code elements of a non-empty list: the first one's, if it is
      code, and those of the rest. */
  lemma CodeIdsCons(found: seq<Element>)
    requires |found| > 0
    ensures CodeIds(found) == (if IsCode(found[0]) then {found[0].id} else {}) + CodeIds(found[1..])
  {
    forall x | x in CodeIds(found) ensures x in (if IsCode(found[0]) then {found[0].id} else {}) + CodeIds(found[1..]) {
      var i :| 0 <= i < |found| && IsCode(found[i]) && found[i].id == x;
      if i > 0 { assert found[1..][i - 1] == found[i]; }
    }
    forall x | x in CodeIds(found[1..]) ensures x in CodeIds(found) {
      var i :| 0 <= i < |found[1..]| && IsCode(found[1..][i]) && found[1..][i].id == x;
      assert found[i + 1] == found[1..][i];
    }
  }

  /** One element's turn of the pass. */
  function Visit(l: Linter, e: Element): Linter {
    if e.id !in l.processed && IsCode(e) then AddFormatButton(l.(processed := l.processed + {e.id}), e) else l
  }

  /** A turn keeps the invariant, marks the element processed if it is
      code, and appends at most that element's button. */
  lemma VisitEffect(l: Linter, e: Element)
    requires Inv(l)
    ensures var n := Visit(l, e);
      && Inv(n)
      && n.processed == l.processed + (if IsCode(e) then {e.id} else {})
      && n.enabled == l.enabled && n.observing == l.observing
      && (n.buttons == l.buttons || (n.buttons == l.buttons + [e.id] && e.id !in l.processed && IsCode(e)))
  {
  }

  /** A pass processes exactly the code elements found, adds buttons only
      after the existing ones and only for elements not processed before,
      and keeps the invariant. */
  lemma {:induction false} ProcessAllEffect(l: Linter, found: seq<Element>)
    requires Inv(l)
    ensures var r := ProcessAll(l, found);
      && Inv(r)
      && r.processed == l.processed + CodeIds(found)
      && r.enabled == l.enabled && r.observing == l.observing
      && |l.buttons| <= |r.buttons| && r.buttons[..|l.buttons|] == l.buttons
      && (forall i :: |l.buttons| <= i < |r.buttons| ==> r.buttons[i] !in l.processed && r.buttons[i] in CodeIds(found))
    decreases |found|
  {
    if |found| > 0 {
      var e := found[0];
      var next := Visit(l, e);
      VisitEffect(l, e);
      ProcessAllEffect(next, found[1..]);
      CodeIdsCons(found);
      var r := ProcessAll(next, found[1..]);
      assert r.buttons[..|l.buttons|] == l.buttons by {
        assert next.buttons[..|l.buttons|] == l.buttons;
        assert r.buttons[..|next.buttons|] == next.buttons;
      }
    }
  }

  /** Once every code element found is processed, a pass changes nothing. */
  lemma {:induction false} ProcessAllDone(l: Linter, found: seq<Element>)
    requires CodeIds(found) <= l.processed
    ensures ProcessAll(l, found) == l
    decreases |found|
  {
    if |found| > 0 {
      CodeIdsCons(found);
      ProcessAllDone(l, found[1..]);
    }
  }

  /** `applyToExistingElements()`: nothing while disabled. */
  function ApplyToExistingElements(l: Linter, found: seq<Element>): (r: Linter)
    requires Inv(l)
    ensures Inv(r)
    ensures r.enabled == l.enabled && r.observing == l.observing
    ensures !l.enabled ==> r == l
    ensures l.enabled ==> r.processed == l.processed + CodeIds(found)
    ensures |l.buttons| <= |r.buttons| && r.buttons[..|l.buttons|] == l.buttons
    ensures forall i :: |l.buttons| <= i < |r.buttons| ==> r.buttons[i] !in l.processed
  {
    if !l.enabled then l
    else
      ProcessAllEffect(l, found);
      ProcessAll(l, found)
  }

  /** Applying twice to the same elements is applying once: an element is
      never given a second button. */
  lemma ApplyIdempotent(l: Linter, found: seq<Element>)
    requires Inv(l)
    ensures ApplyToExistingElements(ApplyToExistingElements(l, found), found) == ApplyToExistingElements(l, found)
  {
    if l.enabled {
      ProcessAllEffect(l, found);
      ProcessAllDone(ProcessAll(l, found), found);
    }
  }

  // ---------------------------------------------------------------------
  // Lifecycle

  /** `startObserving()`: a second start does nothing. */
  function StartObserving(l: Linter): (r: Linter)
    ensures r.observing && r == l.(observing := true)
  {
    if l.observing then l else l.(observing := true)
  }

  /** `stopObserving()`. */
  function StopObserving(l: Linter): (r: Linter)
    ensures !r.observing && r == l.(observing := false)
  {
    if l.observing then l.(observing := false) else l
  }

  /** `toggle(enable)`: persist the flag; start observing and process the
      page when enabling, stop observing when disabling. */
  function Toggle(l: Linter, st: Storage.Store, enable: bool, found: seq<Element>): (r: (Linter, Storage.Store))
    requires Inv(l)
    ensures Inv(r.0)
    ensures r.0.enabled == enable && r.0.observing == enable
    ensures r.1 == Storage.SetFeatureState(st, Name, enable)
    ensures enable ==> r.0.processed == l.processed + CodeIds(found)
    ensures !enable ==> r.0.processed == l.processed && r.0.buttons == l.buttons
  {
    var st' := Storage.SetFeatureState(st, Name, enable);
    if enable then (ApplyToExistingElements(StartObserving(l.(enabled := true)), found), st')
    else (StopObserving(l.(enabled := false)), st')
  }

  /** `init()` with the feature flag as read from storage. */
  function Init(l: Linter, enabled: bool, found: seq<Element>): (r: Linter)
    requires Inv(l)
    ensures Inv(r)
    ensures r.enabled == enabled
    ensures enabled ==> r.observing && r.processed == l.processed + CodeIds(found)
    ensures !enabled ==> r == l.(enabled := false)
  {
    if enabled then ApplyToExistingElements(StartObserving(l.(enabled := true)), found)
    else l.(enabled := false)
  }

  /** `cleanup()`: stop observing and remove every format button. The
      elements stay processed. */
  function Cleanup(l: Linter): (r: Linter)
    ensures !r.observing && r.buttons == [] && r.processed == l.processed && Inv(r)
  {
    StopObserving(l).(buttons := [])
  }

  /** Because cleanup keeps the processed set, switching the feature back
      on gives buttons only to elements never processed before: an element
      that lost its button to cleanup does not get it back. */
  lemma {:induction false} ReenableAfterCleanup(l: Linter, st: Storage.Store, found: seq<Element>)
    requires Inv(l)
    ensures var r := Toggle(Cleanup(l), st, true, found).0;
      && (forall i :: 0 <= i < |r.buttons| ==> r.buttons[i] !in l.processed)
      && (CodeIds(found) <= l.processed ==> r.buttons == [])
  {
    var c := StartObserving(Cleanup(l).(enabled := true));
    if CodeIds(found) <= l.processed {
      ProcessAllDone(c, found);
    }
  }
}

=== FILE: password_manager.dfy ===
/** The password vault (src/features/passwordManager/passwordManager.ts).

    The vault's own state is `enabled`, the master key, the locked flag and
    the auto-lock deadline; the passwords and the master-key verifier live
    in extension storage. Every operation is a function from the vault,
    the storage and its inputs to the new vault, the new storage and the
    reply. The auto-lock timer is a deadline: starting the timer sets it to
    `now + LockDuration`, stopping it clears it, and the timer firing is
    the `Expire` event. */
module PasswordManager {
  import opened Types
  import JsObject
  import Storage
  import Crypto
  import Text

  const Name := "passwordManager"

  /** `lockDuration`: five minutes, in milliseconds. */
  const LockDuration := 5 * 60 * 1000

  /** The passphrase the master-key verifier is encrypted under. */
  const SaltPassphrase := "gnoixus-salt"

  const HashKey := "pw_master_key_hash"
  const SetKey := "pw_master_key_set"
  const StoreKey := "pw_store"

  const MinKeyLength := 8
  const DefaultLength := 16

  const ShortKey := "Master key must be at least 8 characters"
  const NotSetUp := "Master key not set up"
  const InvalidKey := "Invalid master key"
  const LockedError := "Password manager is locked"
  const NotFound := "Password not found"
  const DecryptFailed := "Failed to decrypt password"
  const SaveFailed := "Failed to save password"
  const Disabled := "Feature disabled"
  const UnknownAction := "Unknown action"

  datatype Vault = Vault(enabled: bool, masterKey: Option<string>, isLocked: bool, deadline: Option<int>)

  const Initial := Vault(true, None, true, None)

  /** The key is held exactly while the vault is unlocked, and the
      auto-lock timer only runs while it is unlocked. */
  predicate Inv(v: Vault) {
    && (v.masterKey.Some? <==> !v.isLocked)
    && (v.deadline.Some? ==> !v.isLocked)
  }

  /** The guard `!(this.isLocked || !this.masterKey)` of the operations on
      passwords: unlocked, with a non-empty key. */
  predicate Unlocked(v: Vault) {
    !v.isLocked && v.masterKey.Some? && v.masterKey.value != ""
  }

  /** The replies: `{success: true}`, `{success: false, error}`,
      `{success: false}`, a credential, a listing, a generated password,
      and the bare `{error}` of the dispatcher. */
  datatype Reply =
    | Done
    | Failed(error: string)
    | FailedPlain
    | Credential(username: string, password: string)
    | Entries(entries: seq<Listing>)
    | Generated(password: string)
    | Refused(error: string)

  predicate IsError(r: Reply) {
    r.Failed? || r.FailedPlain? || r.Refused?
  }

  datatype Step = Step(vault: Vault, storage: Storage.Store, reply: Reply)

  /** What every step of the vault keeps: an error changes nothing, the
      enabled flag stays, the invariant is preserved, and storage changes
      only under the vault's own three keys, keeping the store well
      formed. */
  ghost predicate Frames(v: Vault, st: Storage.Store, r: Step) {
    && (IsError(r.reply) ==> r.vault == v && r.storage == st)
    && r.vault.enabled == v.enabled
    && (Inv(v) ==> Inv(r.vault))
    && Storage.SameExcept(st, r.storage, {HashKey, SetKey, StoreKey})
    && (StoreWf(st) ==> StoreWf(r.storage))
  }

  /** A successful step of an operation that needs the key leaves the
      vault unlocked with a fresh five-minute deadline. */
  predicate Refreshed(r: Step, now: int) {
    !IsError(r.reply) ==> Unlocked(r.vault) && r.vault.deadline == Some(now + LockDuration)
  }

  /** A successful step leaves the vault open, holding a key (possibly the
      empty one), with a fresh five-minute deadline. */
  predicate Opened(r: Step, now: int) {
    !IsError(r.reply) ==> !r.vault.isLocked && r.vault.masterKey.Some? && r.vault.deadline == Some(now + LockDuration)
  }

  // ---------------------------------------------------------------------
  // Lock state

  /** `startAutoLockTimer()`: any running timer is replaced. */
  function Arm(v: Vault, now: int): (r: Vault)
    ensures r.deadline == Some(now + LockDuration)
    ensures r.enabled == v.enabled && r.masterKey == v.masterKey && r.isLocked == v.isLocked
  {
    v.(deadline := Some(now + LockDuration))
  }

  /** What a successful setup or unlock does to the vault. */
  function Open(v: Vault, key: string, now: int): (r: Vault)
    ensures Inv(r) && !r.isLocked && r.masterKey == Some(key) && r.deadline == Some(now + LockDuration)
    ensures r.enabled == v.enabled
    ensures key != "" ==> Unlocked(r)
  {
    Arm(v.(masterKey := Some(key), isLocked := false), now)
  }

  /** `lock()`: forget the key and stop the timer. */
  function Lock(v: Vault): (r: Vault)
    ensures Inv(r) && r.isLocked && !Unlocked(r) && r.masterKey.None? && r.deadline.None?
    ensures r.enabled == v.enabled
  {
    v.(masterKey := None, isLocked := true, deadline := None)
  }

  /** Locking a locked vault changes nothing. */
  lemma LockIdempotent(v: Vault)
    ensures Lock(Lock(v)) == Lock(v)
    ensures Inv(v) && v.isLocked && v.deadline.None? ==> Lock(v) == v
  {
  }

  /** The auto-lock timer firing at time `now`. */
  function Expire(v: Vault, now: int): (r: Vault)
    ensures Inv(v) ==> Inv(r)
    ensures v.deadline.Some? && now >= v.deadline.value ==> r == Lock(v)
    ensures v.deadline.None? || now < v.deadline.value ==> r == v
  {
    if v.deadline.Some? && now >= v.deadline.value then Lock(v) else v
  }

  /** After any successful operation at time `now` the vault locks itself
      exactly when five minutes have passed without another one. */
  lemma {:induction false} AutoLock(v: Vault, key: string, now: int, later: int)
    requires key != ""
    ensures var u := Open(v, key, now);
      && (later < now + LockDuration ==> Expire(u, later) == u && Unlocked(u))
      && (later >= now + LockDuration ==> !Unlocked(Expire(u, later)))
  {
  }

  // ---------------------------------------------------------------------
  // Setup and unlock

  /** `setupMasterKey(masterKey)`: a key shorter than 8 UTF-16 code units
      (the empty key included) is refused; otherwise its verifier (the key
      encrypted under the salt passphrase) and the "set" flag are stored
      and the vault opens. */
  function SetupMasterKey(v: Vault, st: Storage.Store, c: Crypto.Cipher, key: string, now: int, salt: nat): (r: Step)
    ensures Frames(v, st, r) && Refreshed(r, now)
    ensures Text.Utf16Length(key) < MinKeyLength ==> r == Step(v, st, Failed(ShortKey))
    ensures Text.Utf16Length(key) >= MinKeyLength ==>
      && r.reply == Done && r.vault == Open(v, key, now) && Unlocked(r.vault)
      && HashKey in r.storage && r.storage[HashKey] == Storage.Str(Crypto.Encrypt(c, key, SaltPassphrase, salt))
      && Storage.Get(r.storage, SetKey) == Some(Storage.Bool(true))
      && Storage.SameExcept(st, r.storage, {HashKey, SetKey})
  {
    Text.Utf16LengthBounds(key);
    if Text.Utf16Length(key) < MinKeyLength then Step(v, st, Failed(ShortKey))
    else
      var hashed := Crypto.Encrypt(c, key, SaltPassphrase, salt);
      var st' := Storage.Set(Storage.Set(st, HashKey, Storage.Str(hashed)), SetKey, Storage.Bool(true));
      Step(Open(v, key, now), st', Done)
  }

  /** The length test counts UTF-16 code units, as JavaScript's `length`
      does: four characters outside the Basic Multilingual Plane make an
      acceptable key, seven plain letters do not. */
  lemma SetupCountsCodeUnits(v: Vault, st: Storage.Store, c: Crypto.Cipher, now: int, salt: nat)
    ensures SetupMasterKey(v, st, c, "\U{1F600}\U{1F600}\U{1F600}\U{1F600}", now, salt).reply == Done
    ensures SetupMasterKey(v, st, c, "abcdefg", now, salt).reply == Failed(ShortKey)
  {
    assert Text.Utf16Length("\U{1F600}\U{1F600}\U{1F600}\U{1F600}") == 8;
    Text.Utf16LengthBounds("abcdefg");
  }

  /** `unlock(masterKey)` as written, and as the dispatcher calls it: the
      candidate is encrypted afresh and compared, as a string, with the
      stored verifier. Both encryptions draw their own salt (`salt` here,
      the one of setup there). Nothing stops an empty candidate whose
      encryption happens to equal the verifier, so success opens the vault
      but need not leave it `Unlocked`. */
  function UnlockAsWritten(v: Vault, st: Storage.Store, c: Crypto.Cipher, key: string, now: int, salt: nat): (r: Step)
    ensures Frames(v, st, r) && Opened(r, now)
    ensures key != "" ==> Refreshed(r, now)
    ensures r.storage == st
    ensures Storage.Get(st, HashKey).None? ==> r == Step(v, st, Failed(NotSetUp))
    ensures Storage.Get(st, HashKey).Some? ==>
      (r.reply == Done <==> Storage.Get(st, HashKey).value == Storage.Str(Crypto.Encrypt(c, key, SaltPassphrase, salt)))
    ensures r.reply == Done ==> r.vault == Open(v, key, now)
    ensures r.reply != Done ==> r.vault == v && r.reply.Failed?
    ensures Storage.Get(st, HashKey).Some? && r.reply != Done ==> r.reply == Failed(InvalidKey)
  {
    match Storage.Get(st, HashKey)
    case None => Step(v, st, Failed(NotSetUp))
    case Some(stored) =>
      var hashedInput := Crypto.Encrypt(c, key, SaltPassphrase, salt);
      if Storage.Str(hashedInput) != stored then Step(v, st, Failed(InvalidKey))
      else Step(Open(v, key, now), st, Done)
  }

  /** The verifier check as evidently intended: the stored verifier is
      decrypted under the salt passphrase and must give back the candidate
      key. (A failed decryption gives "", which matches no key.) */
  predicate KeyMatches(c: Crypto.Cipher, stored: Storage.Value, key: string) {
    stored.Str? && Crypto.Decrypt(c, stored.s, SaltPassphrase) == key && key != ""
  }

  /** `unlock(masterKey)` with the intended verifier check, the unlock of
      `HandleMessageCorrected`. */
  function Unlock(v: Vault, st: Storage.Store, c: Crypto.Cipher, key: string, now: int): (r: Step)
    ensures Frames(v, st, r) && Refreshed(r, now)
    ensures r.storage == st
    ensures Storage.Get(st, HashKey).None? ==> r == Step(v, st, Failed(NotSetUp))
    ensures Storage.Get(st, HashKey).Some? && !KeyMatches(c, Storage.Get(st, HashKey).value, key) ==>
      r == Step(v, st, Failed(InvalidKey))
    ensures r.reply == Done <==> Storage.Get(st, HashKey).Some? && KeyMatches(c, Storage.Get(st, HashKey).value, key)
    ensures r.reply == Done ==> r.vault == Open(v, key, now) && Unlocked(r.vault)
  {
    match Storage.Get(st, HashKey)
    case None => Step(v, st, Failed(NotSetUp))
    case Some(stored) =>
      if !KeyMatches(c, stored, key) then Step(v, st, Failed(InvalidKey))
      else Step(Open(v, key, now), st, Done)
  }

  /** The discrepancy. After setup with one salt and a lock, unlocking
      with the same key as written succeeds only if the fresh encryption
      happens to equal the stored one; for a cipher whose passphrase
      encryption depends on its salt, as a randomly salted one does, it
      fails with 'Invalid master key'. The intended check accepts the same
      key whatever the salts. */
  lemma {:induction false} UnlockAfterSetup(v: Vault, st: Storage.Store, c: Crypto.Cipher, key: string, wrong: string,
                                            t1: int, salt1: nat, t2: int, salt2: nat)
    requires Text.Utf16Length(key) >= MinKeyLength && wrong != key
    requires Crypto.RoundTrips(c) && Crypto.NonEmptyOutput(c)
    ensures var s := SetupMasterKey(v, st, c, key, t1, salt1);
      && ((UnlockAsWritten(Lock(s.vault), s.storage, c, key, t2, salt2).reply == Done)
          <==> (Crypto.Encrypt(c, key, SaltPassphrase, salt2) == Crypto.Encrypt(c, key, SaltPassphrase, salt1)))
      && Unlock(Lock(s.vault), s.storage, c, key, t2).reply == Done
      && Unlock(Lock(s.vault), s.storage, c, wrong, t2).reply == Failed(InvalidKey)
  {
    var s := SetupMasterKey(v, st, c, key, t1, salt1);
    var hashed := Crypto.Encrypt(c, key, SaltPassphrase, salt1);
    assert hashed != "";
    assert Storage.Get(s.storage, HashKey) == Some(Storage.Str(hashed));
    assert Crypto.Decrypt(c, hashed, SaltPassphrase) == key;
  }

  /** A cipher whose output records the salt in front of the text, as
      CryptoJS's passphrase mode records its random salt; decryption drops
      it again. */
  function SaltedCipher(): Crypto.Cipher {
    Crypto.Cipher((d: string, k: string, n: nat) => (if n % 2 == 0 then "0" else "1") + d,
                  (x: string, k: string) => if |x| > 0 then Some(x[1..]) else None)
  }

  /** It is a cipher the vault's lemmas admit: it round-trips and never
      yields the empty ciphertext. */
  lemma SaltedCipherAdmitted()
    ensures Crypto.RoundTrips(SaltedCipher()) && Crypto.NonEmptyOutput(SaltedCipher())
  {
    var c := SaltedCipher();
    forall d, k, n ensures Crypto.Decrypt(c, Crypto.Encrypt(c, d, k, n), k) == d {
      var x := Crypto.Encrypt(c, d, k, n);
      assert x == (if n % 2 == 0 then "0" else "1") + d;
      assert x[1..] == d;
    }
  }

  /** The cipher's encryption puts the salt's parity in front. */
  lemma SaltedSeal(d: string, k: string, n: nat)
    ensures Crypto.Encrypt(SaltedCipher(), d, k, n) == [if n % 2 == 0 then '0' else '1'] + d
  {
  }

  /** With that cipher, setup under one salt, lock, and unlock with the
      very same key under another salt is refused by the code as written,
      and accepted by the intended check. */
  lemma {:induction false} SetupLockUnlockRefused(st: Storage.Store, key: string)
    requires Text.Utf16Length(key) >= MinKeyLength
    ensures var s := SetupMasterKey(Initial, st, SaltedCipher(), key, 0, 0);
      && UnlockAsWritten(Lock(s.vault), s.storage, SaltedCipher(), key, 1, 1).reply == Failed(InvalidKey)
      && Unlock(Lock(s.vault), s.storage, SaltedCipher(), key, 1).reply == Done
  {
    var c := SaltedCipher();
    SaltedCipherAdmitted();
    UnlockAfterSetup(Initial, st, c, key, key + "x", 0, 0, 1, 1);
    SaltedSeal(key, SaltPassphrase, 0);
    SaltedSeal(key, SaltPassphrase, 1);
    var stored := Crypto.Encrypt(c, key, SaltPassphrase, 0);
    var again := Crypto.Encrypt(c, key, SaltPassphrase, 1);
    assert stored[0] != again[0];
    var s := SetupMasterKey(Initial, st, c, key, 0, 0);
    assert Storage.Get(s.storage, HashKey) == Some(Storage.Str(stored));
  }

  // ---------------------------------------------------------------------
  // The password store

  /** `await StorageManager.get('pw_store') || {}` read as an object: a
      missing or falsy value is the empty object; a value that is not an
      object has no own entries either. */
  function ReadStore(st: Storage.Store): JsObject.Object<PasswordEntry> {
    match Storage.Get(st, StoreKey)
    case Some(Obj(o)) => o
    case _ => []
  }

  /** Adding a property to the stored value is possible: it is absent,
      falsy (so `{}` is used) or an object. Assigning a property on any
      other value throws in strict-mode code. */
  predicate StoreWritable(st: Storage.Store) {
    Storage.Get(st, StoreKey).None? || Storage.Get(st, StoreKey).value.Obj?
  }

  /** A stored object has distinct property names, as every JSON object
      read back from storage does. */
  predicate StoreWf(st: Storage.Store) {
    StoreKey in st && st[StoreKey].Obj? ==> JsObject.Wf(st[StoreKey].entries)
  }

  /** The store's entries are well formed whenever the stored object is. */
  lemma ReadStoreWf(st: Storage.Store)
    ensures StoreWf(st) ==> JsObject.Wf(ReadStore(st))
  {
    if StoreWf(st) && Storage.Get(st, StoreKey).Some? && Storage.Get(st, StoreKey).value.Obj? {
      assert st[StoreKey] == Storage.Get(st, StoreKey).value;
    }
  }

  /** Writing an object under the store's key: it is what the next read
      gives, and nothing else changes. */
  lemma WriteStore(st: Storage.Store, o: JsObject.Object<PasswordEntry>)
    ensures var st' := Storage.Set(st, StoreKey, Storage.Obj(o));
      && ReadStore(st') == o && StoreWritable(st')
      && Storage.SameExcept(st, st', {StoreKey})
      && (JsObject.Wf(o) ==> StoreWf(st'))
  {
  }

  /** `addPassword(site, username, password)`: while unlocked, the entry
      for `site` becomes a fresh one holding the password encrypted under
      the master key, created and updated now. */
  function AddPassword(v: Vault, st: Storage.Store, c: Crypto.Cipher, site: string, username: string, password: string,
                       now: int, salt: nat): (r: Step)
    ensures Frames(v, st, r) && Refreshed(r, now)
    ensures !Unlocked(v) ==> r == Step(v, st, Failed(LockedError))
    ensures Unlocked(v) && !StoreWritable(st) ==> r == Step(v, st, Failed(SaveFailed))
    ensures Unlocked(v) && StoreWritable(st) ==>
      && r.reply == Done && r.vault == Arm(v, now)
      && Storage.SameExcept(st, r.storage, {StoreKey})
      && StoreWritable(r.storage)
      && JsObject.Keys(ReadStore(r.storage)) == JsObject.Keys(ReadStore(st)) + {site}
      && JsObject.Lookup(ReadStore(r.storage), site) ==
           Some(PasswordEntry(site, username, Crypto.Encrypt(c, password, v.masterKey.value, salt), now, now))
    ensures StoreWf(st) ==> StoreWf(r.storage)
  {
    if !Unlocked(v) then Step(v, st, Failed(LockedError))
    else if !StoreWritable(st) then Step(v, st, Failed(SaveFailed))
    else
      var entry := PasswordEntry(site, username, Crypto.Encrypt(c, password, v.masterKey.value, salt), now, now);
      var o := JsObject.Put(ReadStore(st), site, entry);
      JsObject.LookupPut(ReadStore(st), site, entry, site);
      WriteStore(st, o);
      ReadStoreWf(st);
      Step(Arm(v, now), Storage.Set(st, StoreKey, Storage.Obj(o)), Done)
  }

  /** Adding a password leaves the entry of every other site as it was. */
  lemma AddPasswordOtherSites(v: Vault, st: Storage.Store, c: Crypto.Cipher, site: string, username: string, password: string,
                              now: int, salt: nat, other: string)
    requires other != site
    ensures var r := AddPassword(v, st, c, site, username, password, now, salt);
      JsObject.Lookup(ReadStore(r.storage), other) == JsObject.Lookup(ReadStore(st), other)
  {
    if Unlocked(v) && StoreWritable(st) {
      var entry := PasswordEntry(site, username, Crypto.Encrypt(c, password, v.masterKey.value, salt), now, now);
      JsObject.LookupPut(ReadStore(st), site, entry, other);
    }
  }

  /** `getPassword(site)`: while unlocked, the stored username and the
      decrypted password; an empty decryption counts as a failure. */
  function GetPassword(v: Vault, st: Storage.Store, c: Crypto.Cipher, site: string, now: int): (r: Step)
    ensures Frames(v, st, r) && Refreshed(r, now)
    ensures r.storage == st
    ensures !Unlocked(v) ==> r == Step(v, st, Failed(LockedError))
    ensures Unlocked(v) && site !in JsObject.Keys(ReadStore(st)) ==> r == Step(v, st, Failed(NotFound))
    ensures r.reply.Credential? ==>
      && Unlocked(v) && r.vault == Arm(v, now) && r.reply.password != ""
      && JsObject.Lookup(ReadStore(st), site).Some?
      && r.reply.username == JsObject.Lookup(ReadStore(st), site).value.username
      && r.reply.password == Crypto.Decrypt(c, JsObject.Lookup(ReadStore(st), site).value.encrypted, v.masterKey.value)
    ensures !r.reply.Credential? ==> r.vault == v && r.reply.Failed?
    ensures Unlocked(v) && JsObject.Lookup(ReadStore(st), site).Some? ==>
      var e := JsObject.Lookup(ReadStore(st), site).value;
      var d := Crypto.Decrypt(c, e.encrypted, v.masterKey.value);
      r == (if d == "" then Step(v, st, Failed(DecryptFailed)) else Step(Arm(v, now), st, Credential(e.username, d)))
  {
    if !Unlocked(v) then Step(v, st, Failed(LockedError))
    else
      match JsObject.Lookup(ReadStore(st), site)
      case None => Step(v, st, Failed(NotFound))
      case Some(entry) =>
        var decrypted := Crypto.Decrypt(c, entry.encrypted, v.masterKey.value);
        if decrypted == "" then Step(v, st, Failed(DecryptFailed))
        else Step(Arm(v, now), st, Credential(entry.username, decrypted))
  }

  /** What the listing shows of an entry: no ciphertext. */
  function ListingOf(e: PasswordEntry): Listing {
    Listing(e.site, e.username, e.updatedAt)
  }

  /** The listing of every property of `o`, in property order. */
  function Listings(o: JsObject.Object<PasswordEntry>): (r: seq<Listing>)
    ensures |r| == |o|
    ensures forall i :: 0 <= i < |o| ==> r[i] == ListingOf(o[i].val)
  {
    var entries := JsObject.Values(o);
    seq(|entries|, i requires 0 <= i < |entries| => ListingOf(entries[i]))
  }

  /** `listPasswords()`: one listing per stored entry, in property order. */
  function ListPasswords(v: Vault, st: Storage.Store, now: int): (r: Step)
    ensures Frames(v, st, r) && Refreshed(r, now)
    ensures r.storage == st
    ensures !Unlocked(v) ==> r == Step(v, st, Failed(LockedError))
    ensures Unlocked(v) ==>
      && r.vault == Arm(v, now) && r.reply.Entries?
      && |r.reply.entries| == |ReadStore(st)|
      && forall i :: 0 <= i < |ReadStore(st)| ==>
           r.reply.entries[i] == Listing(ReadStore(st)[i].val.site, ReadStore(st)[i].val.username, ReadStore(st)[i].val.updatedAt)
  {
    if !Unlocked(v) then Step(v, st, Failed(LockedError))
    else
      Step(Arm(v, now), st, Entries(Listings(ReadStore(st))))
  }

  /** `deletePassword(site)`: while unlocked, removes exactly that site. */
  function DeletePassword(v: Vault, st: Storage.Store, site: string, now: int): (r: Step)
    ensures Frames(v, st, r) && Refreshed(r, now)
    ensures !Unlocked(v) ==> r == Step(v, st, Failed(LockedError))
    ensures Unlocked(v) && site !in JsObject.Keys(ReadStore(st)) ==> r == Step(v, st, Failed(NotFound))
    ensures Unlocked(v) && site in JsObject.Keys(ReadStore(st)) ==>
      && r.reply == Done && r.vault == Arm(v, now)
      && Storage.SameExcept(st, r.storage, {StoreKey})
      && (StoreWf(st) ==> JsObject.Keys(ReadStore(r.storage)) == JsObject.Keys(ReadStore(st)) - {site})
    ensures StoreWf(st) ==> StoreWf(r.storage)
  {
    if !Unlocked(v) then Step(v, st, Failed(LockedError))
    else if site !in JsObject.Keys(ReadStore(st)) then Step(v, st, Failed(NotFound))
    else Step(Arm(v, now), Storage.Set(st, StoreKey, Storage.Obj(JsObject.Delete(ReadStore(st), site))), Done)
  }

  /** Deleting one site leaves every other site's entry as it was. */
  lemma DeletePasswordOtherSites(v: Vault, st: Storage.Store, site: string, now: int, other: string)
    requires other != site
    ensures var r := DeletePassword(v, st, site, now);
      StoreWf(st) ==> JsObject.Lookup(ReadStore(r.storage), other) == JsObject.Lookup(ReadStore(st), other)
  {
    if StoreWf(st) && Unlocked(v) && site in JsObject.Keys(ReadStore(st)) {
      ReadStoreWf(st);
      WriteStore(st, JsObject.Delete(ReadStore(st), site));
      JsObject.LookupDelete(ReadStore(st), site, other);
    }
  }

  /** `generatePassword(length = 16)`: all four character classes; a raise
      of the generator becomes `{success: false}`. Needs no unlock. */
  function GeneratePassword(length: Option<int>, random: Crypto.Random): (r: Reply)
    ensures r.Generated? || r == FailedPlain
    ensures r == FailedPlain <==> Crypto.GeneratePassword(length.GetOr(DefaultLength), Crypto.AllClasses, random).None?
    ensures r.Generated? ==> Crypto.GeneratePassword(length.GetOr(DefaultLength), Crypto.AllClasses, random) == Some(r.password)
    ensures r.Generated? ==> |r.password| == length.GetOr(DefaultLength)
  {
    Crypto.AllClassesCharset();
    match Crypto.GeneratePassword(length.GetOr(DefaultLength), Crypto.AllClasses, random)
    case Some(p) => Generated(p)
    case None => FailedPlain
  }

  // ---------------------------------------------------------------------
  // Scenarios

  /** A password added while unlocked is read back by `get`, unless it is
      the empty password, whose decryption cannot be told from a failure. */
  lemma {:induction false} AddThenGet(v: Vault, st: Storage.Store, c: Crypto.Cipher, site: string, username: string, password: string,
                                      t1: int, salt: nat, t2: int)
    requires Crypto.RoundTrips(c) && Unlocked(v) && StoreWritable(st)
    ensures var a := AddPassword(v, st, c, site, username, password, t1, salt);
      var g := GetPassword(a.vault, a.storage, c, site, t2);
      && (password != "" ==> g.reply == Credential(username, password))
      && (password == "" ==> g.reply == Failed(DecryptFailed))
  {
    var a := AddPassword(v, st, c, site, username, password, t1, salt);
    assert Crypto.Decrypt(c, Crypto.Encrypt(c, password, v.masterKey.value, salt), v.masterKey.value) == password;
    assert a.vault.masterKey == v.masterKey;
  }

  /** A password read back under a master key other than the one it was
      saved under is never the saved password, for a cipher that rejects
      wrong keys. */
  lemma {:induction false} GetUnderOtherKey(v: Vault, st: Storage.Store, c: Crypto.Cipher, site: string, username: string,
                                            password: string, t1: int, salt: nat, w: Vault, t2: int)
    requires Crypto.RejectsWrongKey(c) && Unlocked(v) && StoreWritable(st) && Unlocked(w) && w.masterKey != v.masterKey
    ensures var a := AddPassword(v, st, c, site, username, password, t1, salt);
      GetPassword(w, a.storage, c, site, t2).reply != Credential(username, password)
  {
    var a := AddPassword(v, st, c, site, username, password, t1, salt);
    var ct := Crypto.Encrypt(c, password, v.masterKey.value, salt);
    assert Crypto.Decrypt(c, ct, w.masterKey.value) != password;
  }

  /** The stored entries record the site they are stored under, as every
      entry `addPassword` writes does. */
  ghost predicate SitesMatch(o: JsObject.Object<PasswordEntry>) {
    forall i :: 0 <= i < |o| ==> o[i].val.site == o[i].key
  }

  /** What an add writes: the store with the fresh entry put under the
      site, and a vault that is still unlocked. */
  lemma AddStoresEntry(v: Vault, st: Storage.Store, c: Crypto.Cipher, site: string, username: string,
                       password: string, t1: int, salt: nat)
    requires Unlocked(v) && StoreWritable(st)
    ensures var a := AddPassword(v, st, c, site, username, password, t1, salt);
      && Unlocked(a.vault)
      && ReadStore(a.storage) ==
           JsObject.Put(ReadStore(st), site, PasswordEntry(site, username, Crypto.Encrypt(c, password, v.masterKey.value, salt), t1, t1))
  {
    var entry := PasswordEntry(site, username, Crypto.Encrypt(c, password, v.masterKey.value, salt), t1, t1);
    WriteStore(st, JsObject.Put(ReadStore(st), site, entry));
  }

  /** Putting an entry that names its own site lists it once: the listing
      grows by one for a new site and keeps its length for a replaced one,
      and in a well-formed object whose entries name their own site no
      other line names it. */
  lemma {:induction false} PutListed(o: JsObject.Object<PasswordEntry>, site: string, e: PasswordEntry)
    requires e.site == site
    ensures var l := Listings(JsObject.Put(o, site, e));
      && |l| == |o| + (if site in JsObject.Keys(o) then 0 else 1)
      && (exists i :: 0 <= i < |l| && l[i] == ListingOf(e))
      && (JsObject.Wf(o) && SitesMatch(o) ==>
            forall i, j :: 0 <= i < |l| && 0 <= j < |l| && l[i].site == site && l[j].site == site ==> i == j)
  {
    var p := JsObject.Put(o, site, e);
    JsObject.PutPlacement(o, site, e);
    JsObject.PutSlots(o, site, e);
    var i0 :| 0 <= i0 < |p| && p[i0] == JsObject.Slot(site, e);
    assert Listings(p)[i0] == ListingOf(e);
    if JsObject.Wf(o) && SitesMatch(o) {
      forall i | 0 <= i < |p| ensures p[i].val.site == p[i].key {
        if p[i] != JsObject.Slot(site, e) {
          var m :| 0 <= m < |o| && o[m] == p[i];
        }
      }
    }
  }

  /** After an add, the listing shows the site with its username and time,
      once: it has one more line for a new site and as many for a replaced
      one, and in a well-formed store whose entries name their own site no
      other line names it. */
  lemma {:induction false} AddThenList(v: Vault, st: Storage.Store, c: Crypto.Cipher, site: string, username: string,
                                       password: string, t1: int, salt: nat, t2: int)
    requires Unlocked(v) && StoreWritable(st)
    ensures var a := AddPassword(v, st, c, site, username, password, t1, salt);
      var l := ListPasswords(a.vault, a.storage, t2).reply;
      && l.Entries?
      && |l.entries| == |ReadStore(st)| + (if site in JsObject.Keys(ReadStore(st)) then 0 else 1)
      && (exists i :: 0 <= i < |l.entries| && l.entries[i] == Listing(site, username, t1))
      && (StoreWf(st) && SitesMatch(ReadStore(st)) ==>
            forall i, j :: 0 <= i < |l.entries| && 0 <= j < |l.entries| && l.entries[i].site == site && l.entries[j].site == site ==> i == j)
  {
    var entry := PasswordEntry(site, username, Crypto.Encrypt(c, password, v.masterKey.value, salt), t1, t1);
    AddStoresEntry(v, st, c, site, username, password, t1, salt);
    PutListed(ReadStore(st), site, entry);
    ReadStoreWf(st);
  }

  /** After a delete, the site is gone. */
  lemma {:induction false} DeleteThenGet(v: Vault, st: Storage.Store, c: Crypto.Cipher, site: string, t1: int, t2: int)
    requires Unlocked(v) && StoreWf(st) && site in JsObject.Keys(ReadStore(st))
    ensures var d := DeletePassword(v, st, site, t1);
      GetPassword(d.vault, d.storage, c, site, t2) == Step(d.vault, d.storage, Failed(NotFound))
  {
    var d := DeletePassword(v, st, site, t1);
    var o := JsObject.Delete(ReadStore(st), site);
    ReadStoreWf(st);
    WriteStore(st, o);
    assert d.storage == Storage.Set(st, StoreKey, Storage.Obj(o));
    assert site !in JsObject.Keys(ReadStore(d.storage));
    assert Unlocked(d.vault);
  }

  // ---------------------------------------------------------------------
  // Dispatch and lifecycle

  /** The fields of `message.data` the actions read. */
  datatype MessageData = MessageData(masterKey: string, site: string, username: string, password: string, length: Option<int>)

  datatype Message = Message(msgType: string, data: MessageData)

  /** The world an action sees: the cipher, the clock, the salt the next
      encryption draws, and the random words. */
  datatype Env = Env(cipher: Crypto.Cipher, now: int, salt: nat, random: Crypto.Random)

  const Actions := {"unlock", "lock", "add", "get", "list", "delete", "generate", "setup"}

  /** The actions that need an unlocked vault. */
  const Gated := {"add", "get", "list", "delete"}

  /** The actions of the `switch`. */
  datatype Action = UnlockAction | LockAction | AddAction | GetAction | ListAction | DeleteAction | GenerateAction | SetupAction

  /** The `case` a message type selects, if any. */
  function ActionOf(t: string): (a: Option<Action>)
    ensures a.None? <==> t !in Actions
    ensures a == Some(LockAction) <==> t == "lock"
    ensures a == Some(GenerateAction) <==> t == "generate"
    ensures a.Some? && a.value in {AddAction, GetAction, ListAction, DeleteAction} <==> t in Gated
    ensures a.Some? && a.value in {UnlockAction, SetupAction} <==> t in {"setup", "unlock"}
  {
    match t
    case "unlock" => Some(UnlockAction)
    case "lock" => Some(LockAction)
    case "add" => Some(AddAction)
    case "get" => Some(GetAction)
    case "list" => Some(ListAction)
    case "delete" => Some(DeleteAction)
    case "generate" => Some(GenerateAction)
    case "setup" => Some(SetupAction)
    case _ => None
  }

  /** `handleMessage(message)`, with the unlock as written. */
  function HandleMessage(v: Vault, st: Storage.Store, env: Env, m: Message): (r: Step)
    ensures !v.enabled ==> r == Step(v, st, Refused(Disabled))
    ensures v.enabled && m.msgType !in Actions ==> r == Step(v, st, Refused(UnknownAction))
    ensures v.enabled && m.msgType == "lock" ==> r == Step(Lock(v), st, Done)
    ensures v.enabled && m.msgType == "unlock" ==> r == UnlockAsWritten(v, st, env.cipher, m.data.masterKey, env.now, env.salt)
    ensures v.enabled && m.msgType == "setup" ==> r == SetupMasterKey(v, st, env.cipher, m.data.masterKey, env.now, env.salt)
    ensures v.enabled && m.msgType in Gated && !Unlocked(v) ==> r == Step(v, st, Failed(LockedError))
    ensures v.enabled && m.msgType == "generate" ==> r.vault == v && r.storage == st && (r.reply.Generated? || r.reply == FailedPlain)
    ensures v.enabled && m.msgType == "generate" ==> r == Step(v, st, GeneratePassword(m.data.length, env.random))
    ensures v.enabled && m.msgType == "add" ==>
      r == AddPassword(v, st, env.cipher, m.data.site, m.data.username, m.data.password, env.now, env.salt)
    ensures v.enabled && m.msgType == "get" ==> r == GetPassword(v, st, env.cipher, m.data.site, env.now)
    ensures v.enabled && m.msgType == "list" ==> r == ListPasswords(v, st, env.now)
    ensures v.enabled && m.msgType == "delete" ==> r == DeletePassword(v, st, m.data.site, env.now)
    ensures m.msgType in Gated + {"setup"} ==> Refreshed(r, env.now)
    ensures m.msgType == "unlock" ==> Opened(r, env.now)
    ensures Frames(v, st, r)
  {
    if !v.enabled then Step(v, st, Refused(Disabled))
    else
      match ActionOf(m.msgType)
      case Some(UnlockAction) => UnlockAsWritten(v, st, env.cipher, m.data.masterKey, env.now, env.salt)
      case Some(LockAction) => Step(Lock(v), st, Done)
      case Some(AddAction) => AddPassword(v, st, env.cipher, m.data.site, m.data.username, m.data.password, env.now, env.salt)
      case Some(GetAction) => GetPassword(v, st, env.cipher, m.data.site, env.now)
      case Some(ListAction) => ListPasswords(v, st, env.now)
      case Some(DeleteAction) => DeletePassword(v, st, m.data.site, env.now)
      case Some(GenerateAction) => Step(v, st, GeneratePassword(m.data.length, env.random))
      case Some(SetupAction) => SetupMasterKey(v, st, env.cipher, m.data.masterKey, env.now, env.salt)
      case None => Step(v, st, Refused(UnknownAction))
  }

  /** The dispatcher with the intended unlock in place of the one as
      written; every other message is handled alike. */
  function HandleMessageCorrected(v: Vault, st: Storage.Store, env: Env, m: Message): (r: Step)
    ensures v.enabled && m.msgType == "unlock" ==> r == Unlock(v, st, env.cipher, m.data.masterKey, env.now)
    ensures !v.enabled || m.msgType != "unlock" ==> r == HandleMessage(v, st, env, m)
    ensures m.msgType in Gated + {"setup", "unlock"} ==> Refreshed(r, env.now)
    ensures Frames(v, st, r)
  {
    if v.enabled && ActionOf(m.msgType) == Some(UnlockAction) then Unlock(v, st, env.cipher, m.data.masterKey, env.now)
    else HandleMessage(v, st, env, m)
  }

  /** The discrepancy at the level of messages: 'setup', 'lock', then
      'unlock' with the same key, under a round-tripping cipher whose
      salt changed between the encryptions. The dispatcher as written
      answers 'Invalid master key'; the corrected one unlocks. */
  lemma SetupLockUnlockMessages(st: Storage.Store, random: Crypto.Random)
    ensures var data := MessageData("password1", "", "", "", None);
      var s1 := HandleMessage(Initial, st, Env(SaltedCipher(), 0, 0, random), Message("setup", data));
      var s2 := HandleMessage(s1.vault, s1.storage, Env(SaltedCipher(), 1, 1, random), Message("lock", data));
      && HandleMessage(s2.vault, s2.storage, Env(SaltedCipher(), 2, 1, random), Message("unlock", data)).reply == Failed(InvalidKey)
      && HandleMessageCorrected(s2.vault, s2.storage, Env(SaltedCipher(), 2, 1, random), Message("unlock", data)).reply == Done
  {
    var data := MessageData("password1", "", "", "", None);
    var c := SaltedCipher();
    var s1 := HandleMessage(Initial, st, Env(c, 0, 0, random), Message("setup", data));
    assert s1 == SetupMasterKey(Initial, st, c, "password1", 0, 0);
    var s2 := HandleMessage(s1.vault, s1.storage, Env(c, 1, 1, random), Message("lock", data));
    assert s2 == Step(Lock(s1.vault), s1.storage, Done);
    Text.Utf16LengthBounds("password1");
    SetupLockUnlockRefused(st, "password1");
  }

  /** The listener `init` registers: messages for this feature go to
      `handleMessage`, others get no answer. */
  function OnMessage(v: Vault, st: Storage.Store, env: Env, feature: string, m: Message): (r: Option<Step>)
    ensures r.Some? <==> feature == Name
    ensures r.Some? ==> r.value == HandleMessage(v, st, env, m)
  {
    if feature == Name then Some(HandleMessage(v, st, env, m)) else None
  }

  /** `toggle(enable)`: record and persist the flag; disabling locks. */
  function Toggle(v: Vault, st: Storage.Store, enable: bool): (r: (Vault, Storage.Store))
    ensures r.0.enabled == enable
    ensures !enable ==> r.0 == Lock(v).(enabled := false)
    ensures enable ==> r.0 == v.(enabled := true)
    ensures Inv(v) ==> Inv(r.0)
    ensures r.1 == Storage.SetFeatureState(st, Name, enable)
  {
    var st' := Storage.SetFeatureState(st, Name, enable);
    if enable then (v.(enabled := true), st') else (Lock(v.(enabled := false)), st')
  }

  /** `init()` with the flag read from storage. */
  function Init(v: Vault, enabled: bool): (r: Vault)
    ensures r.enabled == enabled && r.masterKey == v.masterKey && r.isLocked == v.isLocked && r.deadline == v.deadline
  {
    v.(enabled := enabled)
  }

  /** `cleanup()`: the same transition as `lock()`. */
  function Cleanup(v: Vault): (r: Vault)
    ensures r == Lock(v) && !Unlocked(r)
  {
    Lock(v)
  }

  /** Every sequence of messages and timer expiries keeps the invariant,
      starting from the initial vault. */
  datatype Event = Receive(env: Env, m: Message) | TimerFires(now: int)

  function Run(v: Vault, st: Storage.Store, events: seq<Event>): Step
    decreases |events|
  {
    if |events| == 0 then Step(v, st, Done)
    else
      match events[0]
      case Receive(env, m) =>
        var s := HandleMessage(v, st, env, m);
        Run(s.vault, s.storage, events[1..])
      case TimerFires(now) => Run(Expire(v, now), st, events[1..])
  }

  lemma {:induction false} RunKeepsInv(v: Vault, st: Storage.Store, events: seq<Event>)
    requires Inv(v) && StoreWf(st)
    ensures Inv(Run(v, st, events).vault) && StoreWf(Run(v, st, events).storage)
    ensures Run(v, st, events).vault.enabled == v.enabled
    decreases |events|
  {
    if |events| > 0 {
      match events[0]
      case Receive(env, m) =>
        var s := HandleMessage(v, st, env, m);
        RunKeepsInv(s.vault, s.storage, events[1..]);
      case TimerFires(now) =>
        RunKeepsInv(Expire(v, now), st, events[1..]);
    }
  }
}

=== FILE: storage.dfy ===
/** `StorageManager` (src/utils.ts): the extension's persistent key-value
    area, modelled as a map from key to stored value. Reading goes through
    `result[key] || null`, so every falsy stored value reads back as null. */
module Storage {
  import opened Types
  import JsObject

  /** The values this extension stores: flags, strings (verifier, token),
      numbers, `null`, and the password store object. */
  datatype Value =
    | Bool(b: bool)
    | Num(n: int)
    | Str(s: string)
    | Null
    | Obj(entries: JsObject.Object<PasswordEntry>)

  type Store = map<string, Value>

  /** JavaScript truthiness. Every object, even `{}`, is truthy. */
  predicate Truthy(v: Value) {
    match v
    case Bool(b) => b
    case Num(n) => n != 0
    case Str(s) => s != ""
    case Null => false
    case Obj(_) => true
  }

  /** `StorageManager.get(key)`: `None` stands for the `null` it returns. */
  function Get(st: Store, key: string): Option<Value> {
    if key in st && Truthy(st[key]) then Some(st[key]) else None
  }

  /** `StorageManager.set(key, value)`. */
  function Set(st: Store, key: string, v: Value): Store {
    st[key := v]
  }

  /** `StorageManager.remove(key)`. */
  function Remove(st: Store, key: string): Store {
    st - {key}
  }

  /** Two stores agree on every key outside `keys`. */
  ghost predicate SameExcept(a: Store, b: Store, keys: set<string>) {
    forall k :: k !in keys ==> (k in a <==> k in b) && (k in a ==> a[k] == b[k])
  }

  /** `get` returns null for a missing key and for every falsy stored value,
      and returns the stored value otherwise. */
  lemma GetNullIff(st: Store, key: string)
    ensures Get(st, key).None? <==> key !in st || st[key] in {Bool(false), Num(0), Str(""), Null}
    ensures Get(st, key).Some? ==> Get(st, key).value == st[key]
  {
  }

  /** A `set` of a truthy value is read back by `get`; a falsy one reads
      back as null. Other keys are untouched, and `remove` makes the key
      read as null. */
  lemma SetThenGet(st: Store, key: string, v: Value, other: string)
    ensures Get(Set(st, key, v), key) == (if Truthy(v) then Some(v) else None)
    ensures other != key ==> Get(Set(st, key, v), other) == Get(st, other)
    ensures Get(Remove(st, key), key) == None
    ensures SameExcept(st, Set(st, key, v), {key})
  {
  }

  /** The storage key of a feature's enabled flag. */
  function FeatureKey(name: string): (k: string)
    ensures |k| == |"feature_"| + |name| && k[..8] == "feature_" && k[8..] == name
  {
    "feature_" + name
  }

  /** Distinct feature names have distinct keys. */
  lemma FeatureKeyInjective(a: string, b: string)
    ensures FeatureKey(a) == FeatureKey(b) ==> a == b
  {
    if FeatureKey(a) == FeatureKey(b) {
      assert a == FeatureKey(a)[8..];
    }
  }

  /** `StorageManager.getFeatureState(name)` as written: the value `get`
      returns, or `true` when `get` returns null. */
  function GetFeatureState(st: Store, name: string): Value {
    match Get(st, FeatureKey(name))
    case Some(v) => v
    case None => Bool(true)
  }

  /** Under the code as written every feature reads as enabled: a missing
      flag, a stored `true` and a stored `false` all give a truthy answer. */
  lemma GetFeatureStateAlwaysEnabled(st: Store, name: string)
    ensures Truthy(GetFeatureState(st, name))
    ensures FeatureKey(name) in st && st[FeatureKey(name)] == Bool(false) ==>
      GetFeatureState(st, name) == Bool(true)
  {
  }

  /** `StorageManager.setFeatureState(name, enabled)`. */
  function SetFeatureState(st: Store, name: string, enabled: bool): (r: Store)
    ensures SameExcept(st, r, {FeatureKey(name)})
    ensures FeatureKey(name) in r && r[FeatureKey(name)] == Bool(enabled)
  {
    Set(st, FeatureKey(name), Bool(enabled))
  }

  /** The feature-state reader with the evidently intended meaning: only a
      missing (or null) flag defaults to enabled; a stored flag is read as
      it was written. */
  function FeatureEnabled(st: Store, name: string): bool {
    var k := FeatureKey(name);
    if k !in st || st[k] == Null then true else Truthy(st[k])
  }

  /** The corrected reader returns what `setFeatureState` wrote, and
      defaults a never-written flag to enabled. */
  lemma FeatureEnabledRoundTrip(st: Store, name: string, enabled: bool, other: string)
    ensures FeatureEnabled(SetFeatureState(st, name, enabled), name) == enabled
    ensures FeatureKey(name) !in st ==> FeatureEnabled(st, name)
    ensures other != name ==>
      FeatureEnabled(SetFeatureState(st, name, enabled), other) == FeatureEnabled(st, other)
  {
    FeatureKeyInjective(name, other);
  }

  /** The discrepancy: after `setFeatureState(name, false)` the reader as
      written still reports the feature enabled, the corrected one does not. */
  lemma DisabledFlagReadsEnabled(st: Store, name: string)
    ensures GetFeatureState(SetFeatureState(st, name, false), name) == Bool(true)
    ensures !FeatureEnabled(SetFeatureState(st, name, false), name)
  {
  }
}

=== FILE: text.dfy ===
/** String helpers with the meaning JavaScript gives them: `indexOf` and
    `includes`, ASCII `toLowerCase`, and `split` on one separator character.

    A Dafny string is a sequence of Unicode scalar values, while JavaScript
    measures strings in UTF-16 code units: `Utf16Length` and
    `CodeUnitIndexOf` give the JavaScript measure of `length` and the
    position `indexOf` reports. */
module Text {

  /** `pat` occurs in `s` starting at position `i`. */
  predicate OccursAt(s: string, pat: string, i: nat) {
    i + |pat| <= |s| && s[i..i + |pat|] == pat
  }

  /** A pattern occurs where it was put. */
  lemma OccursInMiddle(a: string, pat: string, b: string)
    ensures OccursAt(a + pat + b, pat, |a|)
  {
    assert (a + pat + b)[|a|..|a| + |pat|] == pat;
  }

  /** `s.indexOf(pat, from)`: the first position at or after `from` where
      `pat` occurs, or -1. */
  function IndexFrom(s: string, pat: string, from: nat): (r: int)
    requires from <= |s|
    ensures r == -1 || (from <= r <= |s| && OccursAt(s, pat, r))
    ensures r == -1 ==> forall j: nat :: from <= j <= |s| ==> !OccursAt(s, pat, j)
    ensures r != -1 ==> forall j: nat :: from <= j < r ==> !OccursAt(s, pat, j)
    decreases |s| - from
  {
    if OccursAt(s, pat, from) then from
    else if from == |s| then -1
    else IndexFrom(s, pat, from + 1)
  }

  /** `s.indexOf(pat)`. */
  function IndexOf(s: string, pat: string): (r: int)
    ensures -1 <= r <= |s|
    ensures r == -1 <==> forall j: nat :: j <= |s| ==> !OccursAt(s, pat, j)
    ensures r != -1 ==> OccursAt(s, pat, r) && forall j: nat :: j < r ==> !OccursAt(s, pat, j)
  {
    IndexFrom(s, pat, 0)
  }

  /** The UTF-16 code units of one character: two for a character outside
      the Basic Multilingual Plane (a surrogate pair), one otherwise. */
  function Units(c: char): nat {
    if c as int >= 0x1_0000 then 2 else 1
  }

  /** `s.length`: the number of UTF-16 code units of `s`. */
  function Utf16Length(s: string): (n: nat)
    decreases |s|
  {
    if |s| == 0 then 0 else Units(s[0]) + Utf16Length(s[1..])
  }

  /** Each character takes one or two code units; the length equals the
      number of characters exactly when none lies outside the Basic
      Multilingual Plane. */
  lemma {:induction false} Utf16LengthBounds(s: string)
    ensures |s| <= Utf16Length(s) <= 2 * |s|
    ensures Utf16Length(s) == |s| <==> forall i :: 0 <= i < |s| ==> s[i] as int < 0x1_0000
    decreases |s|
  {
    if |s| > 0 {
      Utf16LengthBounds(s[1..]);
      assert forall i :: 1 <= i < |s| ==> s[i] == s[1..][i - 1];
    }
  }

  /** Code units add up over concatenation. */
  lemma {:induction false} Utf16LengthAppend(a: string, b: string)
    ensures Utf16Length(a + b) == Utf16Length(a) + Utf16Length(b)
    decreases |a|
  {
    if |a| > 0 {
      assert (a + b)[0] == a[0] && (a + b)[1..] == a[1..] + b;
      Utf16LengthAppend(a[1..], b);
    } else {
      assert a + b == b;
    }
  }

  /** `s.indexOf(pat)` as JavaScript reports it: -1 when `pat` does not
      occur, otherwise the number of code units before its first
      occurrence. */
  function CodeUnitIndexOf(s: string, pat: string): (r: int)
    ensures r == -1 <==> IndexOf(s, pat) == -1
    ensures r != -1 ==> r == Utf16Length(s[..IndexOf(s, pat)])
  {
    var i := IndexOf(s, pat);
    if i == -1 then -1 else Utf16Length(s[..i])
  }

  /** In a string of Basic Multilingual Plane characters both measures of
      the position agree. */
  lemma CodeUnitIndexOfBmp(s: string, pat: string)
    requires forall i :: 0 <= i < |s| ==> s[i] as int < 0x1_0000
    ensures CodeUnitIndexOf(s, pat) == IndexOf(s, pat)
  {
    var i := IndexOf(s, pat);
    if i != -1 {
      Utf16LengthBounds(s[..i]);
    }
  }

  /** `s.includes(pat)`. */
  predicate Contains(s: string, pat: string) {
    IndexOf(s, pat) >= 0
  }

  /** ASCII lower-casing of one character. */
  function LowerChar(c: char): char {
    if 'A' <= c <= 'Z' then (c as int + 32) as char else c
  }

  /** `s.toLowerCase()` restricted to ASCII letters. */
  function ToLower(s: string): (r: string)
    ensures |r| == |s|
    ensures forall i :: 0 <= i < |s| ==> r[i] == LowerChar(s[i])
  {
    seq(|s|, i requires 0 <= i < |s| => LowerChar(s[i]))
  }

  /** Lower-casing twice is lower-casing once. */
  lemma ToLowerIdempotent(s: string)
    ensures ToLower(ToLower(s)) == ToLower(s)
  {
    assert forall i :: 0 <= i < |s| ==> LowerChar(LowerChar(s[i])) == LowerChar(s[i]);
  }

  /** Number of occurrences of `c` in `s`. */
  function Count(s: string, c: char): nat {
    if |s| == 0 then 0 else (if s[0] == c then 1 else 0) + Count(s[1..], c)
  }

  /** `parts.join(sep)`. */
  function Join(parts: seq<string>, sep: char): string
    requires |parts| > 0
    decreases |parts|
  {
    if |parts| == 1 then parts[0] else parts[0] + [sep] + Join(parts[1..], sep)
  }

  /** `s.split(sep)`: one more piece than there are separators, no piece
      holds a separator, and joining the pieces gives `s` back. */
  function Split(s: string, sep: char): (r: seq<string>)
    ensures |r| == Count(s, sep) + 1
    ensures forall i :: 0 <= i < |r| ==> sep !in r[i]
    ensures Join(r, sep) == s
    decreases |s|
  {
    if |s| == 0 then [""]
    else
      var rest := Split(s[1..], sep);
      if s[0] == sep then [""] + rest
      else
        JoinConsFirst(s[0], rest, sep);
        [[s[0]] + rest[0]] + rest[1..]
  }

  /** Prepending a character to the first piece prepends it to the join. */
  lemma JoinConsFirst(c: char, parts: seq<string>, sep: char)
    requires |parts| > 0
    ensures Join([[c] + parts[0]] + parts[1..], sep) == [c] + Join(parts, sep)
  {
    var r := [[c] + parts[0]] + parts[1..];
    assert r[1..] == parts[1..];
  }
}

=== FILE: types.dfy ===
/** Record shapes shared by the features (src/types.ts), plus the
    optional-value wrapper the rest of the model uses for JavaScript's
    `null`/`undefined`. */
module Types {

  /** A value that may be absent (`null` or `undefined` in the source). */
  datatype Option<+T> = None | Some(value: T) {
    function GetOr(default: T): T {
      match this
      case Some(v) => v
      case None => default
    }
  }

  /** One saved credential. `encrypted` is the ciphertext of the password;
      the plaintext is never part of an entry. */
  datatype PasswordEntry = PasswordEntry(
    site: string,
    username: string,
    encrypted: string,
    createdAt: int,
    updatedAt: int)

  /** What `listPasswords` reveals about an entry: no ciphertext, no plaintext. */
  datatype Listing = Listing(site: string, username: string, updatedAt: int)

  /** The body of a GitHub search answer. The items are kept abstract. */
  datatype SearchResult = SearchResult(totalCount: int, incomplete: bool, items: seq<string>)

  datatype Severity = Warning | Error

  /** One linter or formatter diagnostic. */
  datatype Finding = Finding(line: int, column: int, message: string, severity: Severity)

  /** The answer of the formatter and the linter (`LinterResult`). */
  datatype LinterResult = LinterResult(success: bool, formatted: Option<string>, errors: Option<seq<Finding>>)
}

=== FILE: worker.dfy ===
/** The formatting/linting worker (src/features/linterFormatter/worker.ts):
    a line-based linter, a character-rewriting CSS formatter, a JavaScript
    formatter and the dispatch on the language name.

    Two steps depend on libraries and stay abstract: the operator-spacing
    regular expression of the JavaScript formatter (`spacing`) and JSON
    parse-then-pretty-print (`json`, `None` where `JSON.parse` raises). */
module Worker {
  import opened Types
  import opened Text

  // ---------------------------------------------------------------------
  // Linting

  const ConsoleLog := "console.log"
  const DebuggerWord := "debugger"
  const ConsoleMessage := "Unexpected console statement"
  const DebuggerMessage := "Debugger statement found"

  /** The warning reported for a line holding `console.log`; the column is
      `indexOf`'s answer, in UTF-16 code units. */
  function ConsoleFinding(line: string, index: nat): Finding {
    Finding(index + 1, CodeUnitIndexOf(line, ConsoleLog), ConsoleMessage, Warning)
  }

  /** The error reported for a line holding `debugger`. */
  function DebuggerFinding(line: string, index: nat): Finding {
    Finding(index + 1, CodeUnitIndexOf(line, DebuggerWord), DebuggerMessage, Error)
  }

  /** What one line (at 0-based `index`) contributes: the console warning
      first, then the debugger error. */
  function LineFindings(line: string, index: nat): seq<Finding> {
    (if Contains(line, ConsoleLog) then [ConsoleFinding(line, index)] else [])
    + (if Contains(line, DebuggerWord) then [DebuggerFinding(line, index)] else [])
  }

  /** The findings of `lines`, the first of which has 0-based index `first`. */
  function LintLines(lines: seq<string>, first: nat): seq<Finding>
    decreases |lines|
  {
    if |lines| == 0 then []
    else LineFindings(lines[0], first) + LintLines(lines[1..], first + 1)
  }

  /** `f` comes before `g` in the report: an earlier line, or the console
      warning before the debugger error of the same line. */
  predicate Before(f: Finding, g: Finding) {
    f.line < g.line || (f.line == g.line && f.severity == Warning && g.severity == Error)
  }

  predicate Ordered(fs: seq<Finding>) {
    forall i, j :: 0 <= i < j < |fs| ==> Before(fs[i], fs[j])
  }

  /** Line `k` is clean: neither pattern occurs in it. */
  predicate Clean(line: string) {
    !Contains(line, ConsoleLog) && !Contains(line, DebuggerWord)
  }

  /** Every finding names a line of the input, numbered from 1. */
  lemma {:induction false} LintLinesBounds(lines: seq<string>, first: nat)
    ensures forall f :: f in LintLines(lines, first) ==> first + 1 <= f.line <= first + |lines|
    decreases |lines|
  {
    if |lines| > 0 {
      LintLinesBounds(lines[1..], first + 1);
    }
  }

  /** Findings are reported in line order, warning before error within a line. */
  lemma {:induction false} LintLinesOrdered(lines: seq<string>, first: nat)
    ensures Ordered(LintLines(lines, first))
    decreases |lines|
  {
    if |lines| > 0 {
      var head := LineFindings(lines[0], first);
      var tail := LintLines(lines[1..], first + 1);
      LintLinesOrdered(lines[1..], first + 1);
      LintLinesBounds(lines[1..], first + 1);
      var all := head + tail;
      forall i, j | 0 <= i < j < |all| ensures Before(all[i], all[j]) {
        if j < |head| {
        } else if i < |head| {
          assert all[i] in head && all[j] == tail[j - |head|];
          assert tail[j - |head|] in tail;
        } else {
          assert all[i] == tail[i - |head|] && all[j] == tail[j - |head|];
        }
      }
    }
  }

  /** `f` is what line `k` of `lines` (numbered from `first`) must report. */
  predicate Expected(lines: seq<string>, first: nat, k: nat, f: Finding)
    requires k < |lines|
  {
    (Contains(lines[k], ConsoleLog) && f == ConsoleFinding(lines[k], first + k))
    || (Contains(lines[k], DebuggerWord) && f == DebuggerFinding(lines[k], first + k))
  }

  /** One line reports exactly its expected findings. */
  lemma LineFindingsExact(lines: seq<string>, first: nat, k: nat, f: Finding)
    requires k < |lines|
    ensures f in LineFindings(lines[k], first + k) <==> Expected(lines, first, k, f)
  {
  }

  /** Exactly the expected findings are reported: a finding is in the report
      iff it is the console warning of a line holding `console.log` or the
      debugger error of a line holding `debugger`. */
  lemma {:induction false} LintLinesExact(lines: seq<string>, first: nat, f: Finding)
    ensures f in LintLines(lines, first) <==> exists k: nat :: k < |lines| && Expected(lines, first, k, f)
    decreases |lines|
  {
    if |lines| > 0 {
      var tail, next := lines[1..], first + 1;
      LintLinesExact(tail, next, f);
      forall k: nat | k < |tail|
        ensures Expected(tail, next, k, f) <==> Expected(lines, first, k + 1, f)
      {
        assert tail[k] == lines[k + 1];
      }
      LineFindingsExact(lines, first, 0, f);
      if exists k: nat :: k < |lines| && Expected(lines, first, k, f) {
        var k: nat :| k < |lines| && Expected(lines, first, k, f);
        if k > 0 {
          assert Expected(tail, next, k - 1, f);
        }
      }
    }
  }

  /** The report is empty iff every line is clean. */
  lemma {:induction false} LintLinesEmpty(lines: seq<string>, first: nat)
    ensures LintLines(lines, first) == [] <==> forall k :: 0 <= k < |lines| ==> Clean(lines[k])
    decreases |lines|
  {
    if |lines| > 0 {
      LintLinesEmpty(lines[1..], first + 1);
      assert forall k :: 1 <= k < |lines| ==> lines[k] == lines[1..][k - 1];
    }
  }

  /** `code.split('\n')`. */
  function Lines(code: string): (r: seq<string>)
    ensures |r| == Count(code, '\n') + 1
  {
    Split(code, '\n')
  }

  /** `lintCode(code, language)`: always successful; `errors` is absent iff
      no line is flagged. The language is not consulted. */
  function LintCode(code: string, language: string): (r: LinterResult)
    ensures r.success && r.formatted.None?
    ensures r.errors.None? <==> forall k :: 0 <= k < |Lines(code)| ==> Clean(Lines(code)[k])
    ensures r.errors.Some? ==> r.errors.value == LintLines(Lines(code), 0)
    ensures r.errors.Some? ==> Ordered(r.errors.value)
    ensures r.errors.Some? ==>
      forall f :: f in r.errors.value ==> 1 <= f.line <= Count(code, '\n') + 1
  {
    var lines := Lines(code);
    var fs := LintLines(lines, 0);
    LintLinesEmpty(lines, 0);
    LintLinesOrdered(lines, 0);
    LintLinesBounds(lines, 0);
    if fs == [] then LinterResult(true, None, None)
    else LinterResult(true, None, Some(fs))
  }

  /** The report names exactly the expected findings of the lines of
      `code`. */
  lemma LintCodeReports(code: string, language: string, f: Finding)
    ensures var r := LintCode(code, language);
      r.errors.Some? ==>
        (f in r.errors.value <==> exists k: nat :: k < |Lines(code)| && Expected(Lines(code), 0, k, f))
  {
    LintLinesExact(Lines(code), 0, f);
  }

  /** The column counts code units: a character outside the Basic
      Multilingual Plane before `console.log` moves it by two. */
  lemma ConsoleColumnAfterEmoji()
    ensures ConsoleFinding("\U{1F600}console.log", 0).column == 2
  {
    var line := "\U{1F600}console.log";
    assert OccursAt(line, ConsoleLog, 1);
    assert line[0..|ConsoleLog|][0] != ConsoleLog[0];
    assert IndexOf(line, ConsoleLog) == 1;
    assert line[..1] == "\U{1F600}";
  }

  // ---------------------------------------------------------------------
  // CSS

  /** `s.replace(/c/g, rep)` for a single character `c`. */
  function ReplaceChar(s: string, c: char, rep: string): string
    decreases |s|
  {
    if |s| == 0 then "" else (if s[0] == c then rep else [s[0]]) + ReplaceChar(s[1..], c, rep)
  }

  /** `formatCSS` as written: three global replacements in turn. */
  function FormatCss(code: string): string {
    ReplaceChar(ReplaceChar(ReplaceChar(code, '{', " {\n  "), '}', "\n}\n"), ';', ";\n  ")
  }

  /** What one character of the input becomes. */
  function CssPiece(c: char): string {
    if c == '{' then " {\n  "
    else if c == '}' then "\n}\n"
    else if c == ';' then ";\n  "
    else [c]
  }

  /** The per-character reading of `formatCSS`, written independently. */
  function CssPieces(s: string): string
    decreases |s|
  {
    if |s| == 0 then "" else CssPiece(s[0]) + CssPieces(s[1..])
  }

  lemma {:induction false} ReplaceCharAppend(a: string, b: string, c: char, rep: string)
    ensures ReplaceChar(a + b, c, rep) == ReplaceChar(a, c, rep) + ReplaceChar(b, c, rep)
    decreases |a|
  {
    if |a| > 0 {
      assert (a + b)[0] == a[0];
      assert (a + b)[1..] == a[1..] + b;
      ReplaceCharAppend(a[1..], b, c, rep);
    } else {
      assert a + b == b;
    }
  }

  lemma {:induction false} ReplaceCharAbsent(s: string, c: char, rep: string)
    requires c !in s
    ensures ReplaceChar(s, c, rep) == s
    decreases |s|
  {
    if |s| > 0 {
      ReplaceCharAbsent(s[1..], c, rep);
    }
  }

  lemma ReplaceCharSingle(x: char, c: char, rep: string)
    ensures ReplaceChar([x], c, rep) == if x == c then rep else [x]
  {
    assert [x][1..] == "";
  }

  /** `formatCSS` works on the two halves of a text separately. */
  lemma FormatCssAppend(a: string, b: string)
    ensures FormatCss(a + b) == FormatCss(a) + FormatCss(b)
  {
    ReplaceCharAppend(a, b, '{', " {\n  ");
    var a1 := ReplaceChar(a, '{', " {\n  ");
    var b1 := ReplaceChar(b, '{', " {\n  ");
    ReplaceCharAppend(a1, b1, '}', "\n}\n");
    ReplaceCharAppend(ReplaceChar(a1, '}', "\n}\n"), ReplaceChar(b1, '}', "\n}\n"), ';', ";\n  ");
  }

  /** One character: no pass rewrites what an earlier pass inserted. */
  lemma FormatCssOne(x: char)
    ensures FormatCss([x]) == CssPiece(x)
  {
    ReplaceCharSingle(x, '{', " {\n  ");
    if x == '{' {
      ReplaceCharAbsent(" {\n  ", '}', "\n}\n");
      ReplaceCharAbsent(" {\n  ", ';', ";\n  ");
    } else {
      ReplaceCharSingle(x, '}', "\n}\n");
      if x == '}' {
        ReplaceCharAbsent("\n}\n", ';', ";\n  ");
      } else {
        ReplaceCharSingle(x, ';', ";\n  ");
      }
    }
  }

  /** The three passes never rewrite each other's output: `formatCSS`
      replaces each '{', '}' and ';' independently and copies every other
      character. */
  lemma {:induction false} FormatCssPerCharacter(s: string)
    ensures FormatCss(s) == CssPieces(s)
    decreases |s|
  {
    if |s| > 0 {
      assert s == [s[0]] + s[1..];
      FormatCssAppend([s[0]], s[1..]);
      FormatCssOne(s[0]);
      FormatCssPerCharacter(s[1..]);
    }
  }

  /** Text with no brace and no semicolon is left as it is. */
  lemma FormatCssPlain(s: string)
    requires '{' !in s && '}' !in s && ';' !in s
    ensures FormatCss(s) == s
  {
    ReplaceCharAbsent(s, '{', " {\n  ");
    ReplaceCharAbsent(s, '}', "\n}\n");
    ReplaceCharAbsent(s, ';', ";\n  ");
  }

  // ---------------------------------------------------------------------
  // JavaScript

  /** `formatted.replace(/\r\n/g, '\n')`, scanning left to right. */
  function NormalizeNewlines(s: string): string
    decreases |s|
  {
    if |s| >= 2 && s[0] == '\r' && s[1] == '\n' then "\n" + NormalizeNewlines(s[2..])
    else if |s| == 0 then ""
    else [s[0]] + NormalizeNewlines(s[1..])
  }

  /** The carriage return at position 0 of `s` is followed by a line feed. */
  predicate CrBeforeLf(s: string) {
    |s| >= 2 && s[0] == '\r' && s[1] == '\n'
  }

  /** Reference reading: drop exactly each '\r' that stands before a '\n'. */
  function DropCrBeforeLf(s: string): string
    decreases |s|
  {
    if |s| == 0 then "" else (if CrBeforeLf(s) then "" else [s[0]]) + DropCrBeforeLf(s[1..])
  }

  /** The scanning replacement deletes exactly the carriage returns that
      precede a line feed, and nothing else. */
  lemma {:induction false} NormalizeNewlinesDropsCr(s: string)
    ensures NormalizeNewlines(s) == DropCrBeforeLf(s)
    decreases |s|
  {
    if CrBeforeLf(s) {
      NormalizeNewlinesDropsCr(s[2..]);
      assert s[1..][1..] == s[2..];
      assert !CrBeforeLf(s[1..]);
    } else if |s| > 0 {
      NormalizeNewlinesDropsCr(s[1..]);
    }
  }

  /** Normalising keeps the number of lines, so line numbers still match. */
  lemma {:induction false} NormalizeNewlinesKeepsLines(s: string)
    ensures Count(NormalizeNewlines(s), '\n') == Count(s, '\n')
    decreases |s|
  {
    if CrBeforeLf(s) {
      NormalizeNewlinesKeepsLines(s[2..]);
      assert s[1..][1..] == s[2..];
      assert ("\n" + NormalizeNewlines(s[2..]))[1..] == NormalizeNewlines(s[2..]);
    } else if |s| > 0 {
      NormalizeNewlinesKeepsLines(s[1..]);
      assert ([s[0]] + NormalizeNewlines(s[1..]))[1..] == NormalizeNewlines(s[1..]);
    }
  }

  /** JavaScript's `\s`. */
  predicate IsSpace(c: char) {
    c == ' ' || c == '\t' || c == '\n' || c == '\r' || c == '\U{0B}' || c == '\U{0C}'
    || c == '\U{A0}' || c == '\U{1680}' || ('\U{2000}' <= c <= '\U{200A}')
    || c == '\U{2028}' || c == '\U{2029}' || c == '\U{202F}' || c == '\U{205F}'
    || c == '\U{3000}' || c == '\U{FEFF}'
  }

  /** The first position at or after `i` that is not whitespace. */
  function SkipSpace(s: string, i: nat): (j: nat)
    requires i <= |s|
    ensures i <= j <= |s|
    ensures forall k :: i <= k < j ==> IsSpace(s[k])
    ensures j < |s| ==> !IsSpace(s[j])
    decreases |s| - i
  {
    if i < |s| && IsSpace(s[i]) then SkipSpace(s, i + 1) else i
  }

  const FunctionWord := "function"

  /** `/function\s*\(/` matches at the start of `s`; the match ends just
      past the '(' at `SkipSpace(s, 8)`. */
  predicate FunctionCallAt(s: string) {
    OccursAt(s, FunctionWord, 0) && SkipSpace(s, 8) < |s| && s[SkipSpace(s, 8)] == '('
  }

  /** `formatted.replace(/function\s*\(/g, 'function (')`: the leftmost
      match is replaced, and scanning resumes after it. */
  function RewriteFunctionParen(s: string): string
    decreases |s|
  {
    if |s| == 0 then ""
    else if FunctionCallAt(s) then "function (" + RewriteFunctionParen(s[SkipSpace(s, 8) + 1..])
    else [s[0]] + RewriteFunctionParen(s[1..])
  }

  /** `s` without its whitespace. */
  function Squeeze(s: string): string
    decreases |s|
  {
    if |s| == 0 then "" else (if IsSpace(s[0]) then "" else [s[0]]) + Squeeze(s[1..])
  }

  lemma {:induction false} SqueezeAppend(a: string, b: string)
    ensures Squeeze(a + b) == Squeeze(a) + Squeeze(b)
    decreases |a|
  {
    if |a| > 0 {
      assert (a + b)[0] == a[0];
      assert (a + b)[1..] == a[1..] + b;
      SqueezeAppend(a[1..], b);
    } else {
      assert a + b == b;
    }
  }

  lemma {:induction false} SqueezeAllSpace(s: string)
    requires forall k :: 0 <= k < |s| ==> IsSpace(s[k])
    ensures Squeeze(s) == ""
    decreases |s|
  {
    if |s| > 0 {
      SqueezeAllSpace(s[1..]);
    }
  }

  lemma {:induction false} SqueezeNoSpace(s: string)
    requires forall k :: 0 <= k < |s| ==> !IsSpace(s[k])
    ensures Squeeze(s) == s
    decreases |s|
  {
    if |s| > 0 {
      SqueezeNoSpace(s[1..]);
    }
  }

  /** No character of "function" is whitespace. */
  lemma FunctionWordNoSpace()
    ensures forall k :: 0 <= k < |FunctionWord| ==> !IsSpace(FunctionWord[k])
  {
    forall k | 0 <= k < |FunctionWord| ensures !IsSpace(FunctionWord[k]) {
      assert 'a' <= FunctionWord[k] <= 'z';
    }
  }

  /** Squeezing a word, a run of whitespace and a bracket leaves the word
      and the bracket. */
  lemma SqueezeMatch(word: string, gap: string, paren: char)
    requires forall k :: 0 <= k < |word| ==> !IsSpace(word[k])
    requires forall k :: 0 <= k < |gap| ==> IsSpace(gap[k])
    requires !IsSpace(paren)
    ensures Squeeze(word + gap + [paren]) == word + [paren]
  {
    SqueezeAppend(word + gap, [paren]);
    SqueezeAppend(word, gap);
    SqueezeAllSpace(gap);
    SqueezeNoSpace(word);
    SqueezeNoSpace([paren]);
  }

  lemma SqueezeReplacement()
    ensures Squeeze("function (") == "function("
  {
    FunctionWordNoSpace();
    SqueezeMatch(FunctionWord, " ", '(');
    assert FunctionWord + " " + ['('] == "function (";
    assert FunctionWord + ['('] == "function(";
  }

  /** A match splits into the word, the run of whitespace, the bracket
      and the rest of the text. */
  lemma FunctionCallParts(s: string)
    requires FunctionCallAt(s)
    ensures var j := SkipSpace(s, 8);
      && s[..8] == FunctionWord && s[j] == '('
      && s == FunctionWord + s[8..j] + ['('] + s[j + 1..]
  {
    var j := SkipSpace(s, 8);
    assert s[..8] == s[0..8];
    assert s[..8] + s[8..j] == s[..j];
    assert s[..j] + [s[j]] == s[..j + 1];
    assert s[..j + 1] + s[j + 1..] == s;
  }

  /** One step of the rewrite at a match keeps the squeezed text. */
  lemma RewriteMatchStep(s: string, rest: string, out: string)
    requires FunctionCallAt(s) && rest == s[SkipSpace(s, 8) + 1..]
    requires Squeeze(out) == Squeeze(rest)
    ensures Squeeze("function (" + out) == Squeeze(s)
  {
    var j := SkipSpace(s, 8);
    var gap := s[8..j];
    FunctionCallParts(s);
    SqueezeAppend(FunctionWord + gap + ['('], rest);
    FunctionWordNoSpace();
    SqueezeMatch(FunctionWord, gap, '(');
    assert FunctionWord + ['('] == "function(";
    SqueezeAppend("function (", out);
    SqueezeReplacement();
  }

  /** One step of the rewrite past a non-matching character keeps the squeezed text. */
  lemma RewriteCopyStep(s: string, out: string)
    requires |s| > 0 && Squeeze(out) == Squeeze(s[1..])
    ensures Squeeze([s[0]] + out) == Squeeze(s)
  {
    assert s == [s[0]] + s[1..];
    SqueezeAppend([s[0]], s[1..]);
    SqueezeAppend([s[0]], out);
  }

  /** The rewrite changes whitespace only: with all whitespace removed, the
      output and the input are the same text. */
  lemma {:induction false} RewriteFunctionParenOnlySpaces(s: string)
    ensures Squeeze(RewriteFunctionParen(s)) == Squeeze(s)
    decreases |s|
  {
    if |s| == 0 {
    } else if FunctionCallAt(s) {
      var rest := s[SkipSpace(s, 8) + 1..];
      RewriteFunctionParenOnlySpaces(rest);
      RewriteMatchStep(s, rest, RewriteFunctionParen(rest));
    } else {
      RewriteFunctionParenOnlySpaces(s[1..]);
      RewriteCopyStep(s, RewriteFunctionParen(s[1..]));
    }
  }

  /** A call written `function  (` becomes `function (`. */
  lemma RewriteFunctionParenExample()
    ensures RewriteFunctionParen("function  (") == "function ("
  {
    var s := "function  (";
    assert OccursAt(s, FunctionWord, 0);
    assert SkipSpace(s, 8) == 10;
    assert s[11..] == "";
  }

  /** `formatJavaScript(code)`: line endings first, the abstract
      operator-spacing step, then the `function (` rewrite. */
  function FormatJavaScript(code: string, spacing: string -> string): string {
    RewriteFunctionParen(spacing(NormalizeNewlines(code)))
  }

  // ---------------------------------------------------------------------
  // Dispatch

  const InvalidJson := Finding(0, 0, "Invalid JSON", Error)

  /** `formatCode(code, language)` of the worker. */
  function FormatCode(code: string, language: string, spacing: string -> string, json: string -> Option<string>): (r: LinterResult)
    ensures r.errors.Some? <==> !r.success
    ensures !r.success <==> language == "json" && json(code).None?
    ensures !r.success ==> r.errors == Some([InvalidJson]) && r.formatted.None?
    ensures language == "css" ==> r.formatted == Some(CssPieces(code))
    ensures language == "javascript" || language == "typescript" ==>
      r.formatted == Some(FormatJavaScript(code, spacing))
    ensures language !in {"javascript", "typescript", "json", "css"} ==> r.formatted == Some(code)
    ensures language == "json" && json(code).Some? ==> r == LinterResult(true, json(code), None)
  {
    FormatCssPerCharacter(code);
    if language == "javascript" || language == "typescript" then
      LinterResult(true, Some(FormatJavaScript(code, spacing)), None)
    else if language == "json" then
      match json(code)
      case Some(pretty) => LinterResult(true, Some(pretty), None)
      case None => LinterResult(false, None, Some([InvalidJson]))
    else if language == "css" then LinterResult(true, Some(FormatCss(code)), None)
    else LinterResult(true, Some(code), None)
  }

  /** The worker's message listener: answers `format` and `lint`, stays
      silent for any other action. */
  function HandleMessage(action: string, code: string, language: string, spacing: string -> string, json: string -> Option<string>): (r: Option<LinterResult>)
    ensures r.Some? <==> action in {"format", "lint"}
    ensures action == "lint" ==> r == Some(LintCode(code, language))
    ensures action == "format" ==> r == Some(FormatCode(code, language, spacing, json))
  {
    if action == "format" then Some(FormatCode(code, language, spacing, json))
    else if action == "lint" then Some(LintCode(code, language))
    else None
  }
}
